=== FILE: README.md ===
# Family task board: week window, task store, live query and day columns

A Dafny model of the core of the family task board (`js/app.js`). The board
shows one week at a time, Monday to Sunday. Tasks live in a realtime
database node `tasks`, a map from push id to task record. The model covers
four parts of the app.

- **The week window.** `getCurrentWeekDates(offset)` finds the Monday of the
  week `offset` weeks from today with `setDate` and writes the seven days as
  `YYYY-MM-DD` strings (`formatDate`). `formatDateDisplay` and `getWeekLabel`
  read those strings back through `split("-")` and `new Date(y, m - 1, d)`.
  `navigateWeek` and the "Today" button move the offset.
- **The task store.** `addTask`, `removeTask`, `toggleTaskComplete` and
  `clearAllTasks` are guarded transitions of the map. The admin is
  "Adriana", and the current user is "" when nobody is signed in.
- **The live query.** `listenToTasks` switches off the previous callback. It
  then registers one callback on the `day` range from the window's first date
  to its last. Each snapshot replaces the cache and redraws the board.
- **The day columns.** `renderWeekView` gives each column the cached records
  of its day, sorted by `createdAt`, with a missing value counting as 0.

Dates are day numbers, with day 0 being 1970-01-01. The calendar is the
proleptic Gregorian one, and `Date` operations follow ECMAScript MakeDay
(section 21.4.1.28 of ECMA-262). Several things come in as parameters:

- today's day number;
- the signed-in user;
- the answer to the confirmation dialog;
- push ids;
- the server timestamp;
- the `for..in` key order;
- the database contents a snapshot is taken of.

Files:

- `wrappers.dfy`: `Option`.
- `text.dfy`: trim, split, string order.
- `decimal.dfy`: `String(n)`, `padStart` and `Number`.
- `civil.dfy`: the calendar.
- `jsdate.dfy`: `Date` getters, `setDate` and the constructor.
- `dateformat.dfy`: the day strings.
- `week.dfy`: the window and its label.
- `tasks.dfy`: the store.
- `view.dfy`: the columns.
- `subscription.dfy`: the session, the listener and navigation.

## Model

| member | source | states |
|---|---|---|
| Week.MondayOffset | js/app.js:89-91 | the step back from any weekday is between -6 and 0 days and lands on a Monday |
| Week.WeekStart | js/app.js:88-93 | the window starts on a Monday, and the day `7 * offset` days from today lies in that Monday's week |
| Week.WeekStartUnique | js/app.js:88-93 | any Monday whose week holds the target day is the window's Monday, so the window is the week of the target day |
| Week.MondayBySetDate | js/app.js:92-93 | `setDate(getDate() + mondayOffset + offset * 7)` on today lands on the window's Monday, across month and year ends |
| Week.DayBySetDate | js/app.js:97-98 | `setDate(monday.getDate() + i)` on a copy of the Monday is the day `i` days later, even past the end of the month |
| Week.WeekDays | js/app.js:95-101 | the window has seven days; the first is a Monday and each day is the one after the previous |
| Week.WeekDateAt | js/app.js:96-99 | entry `i` of the window is the day string of the Monday moved `i` days |
| Week.MondayOf | js/app.js:92-93 | the `monday` the method computes with `setDate` is the window's Monday |
| Week.WeekDateOf | js/app.js:97-99 | one loop iteration pushes entry `i` of the window |
| Week.CurrentWeekDates | js/app.js:87-102 | the `setDate` loop returns exactly the seven day strings of the window, in order |
| Week.WeekShift | js/app.js:93 | going `n` more weeks moves the window's Monday by exactly `7 * n` days |
| Week.WeekFromThisWeek | js/app.js:91-93 | each day of the window at offset `n` is the same column of this week's window plus `7 * n` days |
| Week.ThisWeekHoldsToday | js/app.js:88-99 | at offset 0 the window contains today, and today's string is in the returned dates |
| Week.ColumnWeekDay | js/app.js:95-99 | column `k` of every window falls on weekday `k`, counted from Monday |
| Week.YearMonotone | js/app.js:105 | `getFullYear` never decreases as days go on |
| Week.WeekConsecutive | js/app.js:96-99 | each column's calendar date is the calendar successor of the previous column's |
| Week.WeekDatesRead | js/app.js:111-120 | every day string of the window reads back as its own day, and its header names the weekday of its column (years from 100) |
| Week.WeekDatesAscend | js/app.js:154-160 | with four-digit years the window's strings compare lexicographically as their columns do, in both directions |
| Week.ThisWeekExample | js/app.js:87-102 | on Thursday 2024-06-13 (day 19887) the window is days 19884 to 19890, Monday 2024-06-10 to Sunday 2024-06-16 |
| Week.LastWeekExample | js/app.js:87-102 | one week back from Thursday 2024-06-13 the window starts on Monday 2024-06-03 (day 19877) |
| Week.GetWeekLabel | js/app.js:122-132 | the label is "This Week" exactly when the offset is 0 |
| Week.WeekLabelOfWindow | js/app.js:122-132 | away from offset 0 the label names the month and day of the window's Monday and of its Sunday |
| DateFormat.FormatDateShape | js/app.js:104-109 | for years from 0 on, a day string is the year's digits, a dash, the two-digit month, a dash, the two-digit day |
| DateFormat.FormatDateFourDigitYear | js/app.js:104-109 | with a four-digit year the string is ten characters long, with dashes at positions 4 and 7 |
| DateFormat.Part | js/app.js:112-113 | a missing piece of the split string reads as NaN |
| DateFormat.ParseDateText | js/app.js:112-113 | splitting a date's string and calling the constructor rebuilds the date from its year, month and day |
| DateFormat.ParseFormatDate | js/app.js:104-113 | writing a day and reading it back gives the same day, for every year from 100 on |
| DateFormat.ParseFormatDateTwoDigitYear | js/app.js:112-113 | for years 0..99 the round trip lands on the same date in 1900..1999, for every date except 29 February of year 0 |
| DateFormat.ParseFormatDateYearZeroLeapDay | js/app.js:112-113 | the string of 29 February of year 0 reads back as 1 March 1900 |
| DateFormat.FormatDateInjective | js/app.js:104-109 | two days with the same string are the same day (years from 100 on) |
| DateFormat.MondayIndex | js/app.js:114-116 | the header index is in 0..6 and is the weekday shifted back one place (Sunday goes to 6) |
| DateFormat.DisplayFormatDate | js/app.js:111-120 | the header of a day's string names that day's weekday, its month and its day of the month |
| DateFormat.MonthDayFormatDate | js/app.js:124-131 | one end of the week label names the day's month and its day of the month |
| DateFormat.FormatDateOrder | js/app.js:154-160 | for four-digit years one day string sorts at or before another exactly when its day is no later |
| Decimal.ToNumber | js/app.js:113 | a digit string reads as its decimal value, and any other string reads as NaN |
| Decimal.NatToStringValue | js/app.js:105 | `String(n)` of a natural number reads back as `n` |
| Decimal.TwoDigits | js/app.js:106-107 | `String(n).padStart(2, "0")` for `n < 100` is the two-digit field of `n` |
| Decimal.FixedDigitsOrder | js/app.js:154-160 | equally wide digit fields sort as their values do |
| Text.TrimEmpty | js/app.js:175 | `text.trim()` is empty exactly when every character of the text is whitespace |
| Text.TrimIdempotent | js/app.js:177 | the stored trimmed text trims to itself |
| Text.SplitThree | js/app.js:112 | `split("-")` of three dash-free pieces joined by dashes gives back the three pieces |
| Text.SplitJoin | js/app.js:112 | joining the pieces of `split` with the separator gives back the string |
| Text.LexLeAppend | js/app.js:157-160 | after equally long prefixes the string order is decided by the prefixes, or by the rest when they are equal |
| JsDate.WeekDay | js/app.js:89 | `getDay()` is in 0..6 |
| JsDate.EpochIsThursday | js/app.js:89 | day 0 is 1970-01-01 and `getDay()` gives 4 (Thursday) for it |
| JsDate.WeekDayStep | js/app.js:89-93 | moving `k` days moves the weekday by `k` modulo 7 |
| JsDate.SetDate | js/app.js:93 | `setDate(date)` moves the day by `date - getDate()` days, whatever month that crosses into |
| JsDate.MakeDayShift | js/app.js:93 | MakeDay on a date's own year and month moves `date - day` days from it |
| JsDate.MakeDayCivil | js/app.js:113 | MakeDay with a month index 0..11 gives the day number of that calendar date |
| JsDate.ConstructValid | js/app.js:113 | the constructor rebuilds any valid date whose year is not in 0..99 |
| JsDate.ConstructTwoDigitYear | js/app.js:113 | the constructor reads a year in 0..99 as 1900..1999: every valid date of those years except 29 February of year 0 becomes the same date in 1900..1999 |
| JsDate.MakeDayLeapDayCommon | js/app.js:113 | in a common year, day 29 of month index 1 is 1 March |
| JsDate.ConstructLeapDayRollover | js/app.js:113 | a leap year in 0..99 whose later century year is not a leap year is year 0, and its 29 February becomes 1 March 1900 |
| JsDate.MonthIndex | js/app.js:106 | `getMonth()` is in 0..11 |
| JsDate.DayOfMonth | js/app.js:107 | `getDate()` is in 1..31 |
| Civil.CivilFromDays | js/app.js:105-107 | every day number has a valid calendar date |
| Civil.CivilRoundTrip | js/app.js:105-107 | the calendar date of a day number converts back to the same day number |
| Civil.DaysRoundTrip | js/app.js:105-107 | a valid calendar date converts to a day number and back to itself |
| Civil.NextDayNumber | js/app.js:98 | the next calendar date is valid and has the next day number |
| Civil.CivilOrder | js/app.js:154-160 | one day number is below another exactly when its calendar date comes first |
| Tasks.AddTask | js/app.js:174-185 | whitespace-only text changes nothing; otherwise exactly one record is added under the new id, with the trimmed non-empty text, `completed` false, no `completedBy` and the server time; every other record is untouched |
| Tasks.RemoveTask | js/app.js:187-190 | a user other than the admin changes nothing; the admin removes exactly the given id; no record changes |
| Tasks.SetCompletion | js/app.js:195-199 | the update writes only `completed` and `completedBy`; a record that was missing gets only those two fields |
| Tasks.ToggleTaskComplete | js/app.js:192-200 | with no user nothing changes; otherwise the flag flips, `completedBy` is the user exactly when the new flag is set, the other fields and records stay, and no id is lost |
| Tasks.ClearAllTasks | js/app.js:202-206 | the whole store is emptied exactly when the admin confirms; otherwise nothing changes |
| Tasks.AddKeepsConsistent | js/app.js:174-185 | adding keeps every record's completion consistent: completed exactly when it names a non-empty user |
| Tasks.ToggleKeepsConsistent | js/app.js:192-200 | toggling keeps every record's completion consistent |
| Tasks.RemoveKeepsConsistent | js/app.js:187-206 | removing and clearing keep every record's completion consistent |
| Tasks.ToggleTwice | js/app.js:192-200 | toggling twice restores a record that was open, or that the same user had completed |
| Tasks.OnlyAdminDeletes | js/app.js:187-206 | for a user other than the admin, no operation removes a record |
| Tasks.AddThenRemove | js/app.js:174-190 | the admin removing a just-added task gives the old store back |
| View.Matching | js/app.js:219-223 | every entry the inner loop collects is a cached record of the column's date, under its own id |
| View.MatchingCount | js/app.js:219-223 | the inner loop collects each cached record of the date exactly once and nothing else |
| View.Insert | js/app.js:225-227 | inserting keeps every entry and adds exactly the new one |
| View.InsertSorted | js/app.js:225-227 | inserting into a list sorted by `createdAt` keeps it sorted |
| View.Sort | js/app.js:225-227 | the sorted list is a permutation of the input, ordered by `createdAt` with a missing value as 0 |
| View.InsertWithKey | js/app.js:225-227 | insertion puts an entry after every entry with the same key |
| View.SortStable | js/app.js:225-227 | the sort is stable: the entries sharing a key keep their enumeration order |
| View.DayTasksExact | js/app.js:216-227 | a column lists the cached records of its date, each exactly once, nothing else, sorted by `createdAt` |
| View.RenderWeek | js/app.js:210-232 | one column per date, in order, flagged exactly when its date is today's string; each column lists every cached record of its date exactly once and no other record, sorted by `createdAt` with a missing value as 0 |
| Subscription.Select | js/app.js:157-166 | the cache holds exactly the records whose `day` lies in the query's range, unchanged |
| Subscription.Listen | js/app.js:149-161 | the previous callback is unregistered, and one new callback is registered on the range from the first to the seventh date; nothing else changes |
| Subscription.Deliver | js/app.js:161-169 | a live callback replaces the cache by its query's selection and redraws its own window; a switched-off callback changes nothing |
| Subscription.Refresh | js/app.js:141-145 | the label is "This Week" exactly at offset 0, and the new callback listens on the current window |
| Subscription.NavigateWeek | js/app.js:136-139 | the offset moves by `direction` and the new callback listens on the window of the new offset |
| Subscription.JumpToToday | js/app.js:46-49 | the offset is back to 0, the label is "This Week", and the new callback is the current one and listens on the window of offset 0 |
| Subscription.ListenSingle | js/app.js:149-161 | after listening exactly one callback is registered, the new one |
| Subscription.StepSingle | js/app.js:36-52 | navigation, "Today" and snapshots keep at most one registered callback |
| Subscription.RunSingle | js/app.js:25-55 | after start-up and any sequence of events, exactly one callback is registered, and it is the current one |
| Subscription.StaleCallback | js/app.js:150-152 | a callback switched off by a later listen has no effect on the session |
| Subscription.NavigateShifts | js/app.js:136-139 | navigating by `direction` moves the listened window's Monday by `7 * direction` days |
| Subscription.JumpHoldsToday | js/app.js:46-49 | after "Today" the listened window contains today's string |
| Subscription.RangeIsWindow | js/app.js:154-160 | with four-digit years, a day string is in the listened range exactly when its day is in the window |
| Subscription.WindowInRange | js/app.js:154-160 | every date of the window lies in the listened range |
| Subscription.SnapshotColumn | js/app.js:149-170 | after a refresh and its snapshot, each column lists every database record of its date exactly once and nothing else |
| Subscription.TodayColumn | js/app.js:214-229 | on this week's board exactly one column is flagged today, the column of today's weekday |

## Left out

- JsDate.SetDate: time of day, time zone and the range limit of `Date` (TimeClip, which turns dates beyond ±100 000 000 days into NaN) are not modelled.
- JsDate.Construct: the same limits as SetDate; a day is only its local calendar date.
- Decimal.ToNumber: only digit strings are read. JavaScript `Number(" 6")` is 6, and `Number("1e1")` is 10, but both are None here.
- DateFormat.FormatDateDisplay: it returns a record (weekday name, month name, day) rather than the string `"Mon, Jun 10"`.
- Week.GetWeekLabel: it returns a record rather than the string `"Jun 10 - Jun 16"`.
- DateFormat.FormatDateDisplay: an Invalid Date gives None, not the string "undefined, undefined NaN" the browser would show.
- DateFormat.ParseFormatDate: the round trip is stated for years from 100 on, because the constructor moves years 0..99 into the 1900s, and a negative year breaks it too: the string of 1 March of year -5 is `-5-03-01`, whose `split("-")` is `["", "5", "03", "01"]`, so it reads back as 3 May 1900.
- Week.ThisWeekExample: it states the example window as day numbers and calendar dates, not as the seven strings.
- Subscription.InRange: the database's string order is taken as code-point order. JavaScript compares UTF-16 code units, and the two orders differ for characters from U+10000 on. Record `day` values that are not strings (numbers, booleans) are not modelled.
- Subscription.Listen: this relies on the database SDK. There, `off` on the unfiltered `tasks` reference removes the callback from the filtered query on the same path.
- Subscription.Deliver: a snapshot is a separate event taken of the store. Latency-compensated local events, and the order and timing of delivery, are not modelled.
- Tasks.AddTask: the push id and `ServerValue.TIMESTAMP` are parameters, and the push id is assumed fresh.
- Tasks.ToggleTaskComplete, Tasks.RemoveTask and Tasks.ClearAllTasks: write failures and database security rules are not modelled. Ids containing `/`, which would address a nested path, and the empty id, which would address the whole `tasks` node, are not modelled either; the database never hands out such keys.
- View.RenderWeek: the DOM is left out, and so are `renderDay`, `renderTask` and `showTaskForm`. The `for..in` order of the cache's keys is a parameter.
- `getCurrentUser`, `setCurrentUser` and `updateUIForUser` are left out: the user is a parameter, and the colours and the visibility of the clear button are presentation.
- `initApp` is left out apart from its event wiring (Subscription.Run): Firebase setup and the DOM event listeners are I/O.
- Subscription.RangeIsWindow: a week whose dates do not all have four-digit years has no string-order guarantee.

=== FILE: civil.dfy ===
/**
 Proleptic Gregorian calendar arithmetic on integer day numbers.

 A day number counts days from 1970-01-01 (day 0), the day the ECMAScript
 `Date` object takes as its epoch; negative numbers are earlier days. The
 conversion in both directions follows the usual "era" decomposition: a
 Gregorian era of 400 years has exactly 146097 days, and counting years from
 1 March puts the leap day at the very end of a year, so that month lengths
 inside a year never depend on the year.

 This module stands in for the calendar part of the JavaScript `Date` object
 that the task board uses: `getFullYear`, `getMonth`, `getDate`, `getDay`,
 `setDate` and the three-argument constructor.
 */
module Civil {

  /** A calendar date as (year, month 1..12, day of month). */
  datatype Date = Date(year: int, month: int, day: int)

  predicate IsLeapYear(y: int) {
    y % 4 == 0 && (y % 100 != 0 || y % 400 == 0)
  }

  function DaysInMonth(y: int, m: int): (n: int)
    requires 1 <= m <= 12
    ensures 28 <= n <= 31
    ensures n == 29 <==> m == 2 && IsLeapYear(y)
  {
    if m == 2 then (if IsLeapYear(y) then 29 else 28)
    else if m == 4 || m == 6 || m == 9 || m == 11 then 30
    else 31
  }

  /** A date that names a day that exists on the calendar. */
  predicate Valid(c: Date) {
    1 <= c.month <= 12 && 1 <= c.day <= DaysInMonth(c.year, c.month)
  }

  /** Days from 0000-03-01 to 1970-01-01. */
  const EpochShift: int := 719468
  /** Days in one 400-year Gregorian era. */
  const EraDays: int := 146097

  // ---------------------------------------------------------------------
  // Months inside a March-based year (index 0 = March, 11 = February)
  // ---------------------------------------------------------------------

  /** Length of the month with March-based index `mp`; February is given its leap length. */
  function MarchMonthMax(mp: int): int
    requires 0 <= mp < 12
  {
    if mp == 11 then 29
    else if mp == 1 || mp == 3 || mp == 6 || mp == 8 then 30
    else 31
  }

  /** Zero-based day of the March-based year of day `d` of month `mp`. */
  function DayOfMarchYear(mp: int, d: int): int {
    (153 * mp + 2) / 5 + d - 1
  }

  /** Month index (0 = March) holding day `doy` of a March-based year. */
  function MarchMonthOf(doy: int): int {
    (5 * doy + 2) / 153
  }

  lemma MonthSplit(doy: int)
    requires 0 <= doy <= 365
    ensures var mp := MarchMonthOf(doy);
      && 0 <= mp < 12
      && 1 <= doy - (153 * mp + 2) / 5 + 1 <= MarchMonthMax(mp)
      && DayOfMarchYear(mp, doy - (153 * mp + 2) / 5 + 1) == doy
      && (doy < 365 && mp == 11 ==> doy - (153 * mp + 2) / 5 + 1 <= 28)
  {
  }

  lemma MonthJoin(mp: int, d: int)
    requires 0 <= mp < 12 && 1 <= d <= MarchMonthMax(mp)
    ensures 0 <= DayOfMarchYear(mp, d) <= 365
    ensures MarchMonthOf(DayOfMarchYear(mp, d)) == mp
    ensures mp < 11 || d < 29 ==> DayOfMarchYear(mp, d) < 365
  {
  }

  // ---------------------------------------------------------------------
  // Years inside a 400-year era
  // ---------------------------------------------------------------------

  /** Number of days of the March-based year `yoe` of an era: it ends with
      the February of civil year `yoe + 1` of that era. */
  function MarchYearLength(yoe: int): int {
    if IsLeapYear(yoe + 1) then 366 else 365
  }

  /** Zero-based day of the era of day `doy` of March-based year `yoe`. */
  function DayOfEra(yoe: int, doy: int): int {
    365 * yoe + yoe / 4 - yoe / 100 + doy
  }

  /** Splits a day of an era into (year of era, day of that year): first
      centuries of 36524 days (the last one has 36525), then 4-year blocks of
      1461 days, then years of 365 days (the last one may have 366). */
  function SplitDayOfEra(doe: int): (int, int)
    requires 0 <= doe < EraDays
  {
    var c := if doe / 36524 < 3 then doe / 36524 else 3;
    var doc := doe - 36524 * c;
    var q := doc / 1461;
    var doq := doc - 1461 * q;
    var r := if doq / 365 < 3 then doq / 365 else 3;
    (100 * c + 4 * q + r, doq - 365 * r)
  }

  /** Facts about a year of an era given as century `c`, 4-year block `q`
      and year `r` of the block, with `doy` a day of that year. */
  lemma BlockFacts(c: int, q: int, r: int, doy: int)
    requires 0 <= c < 4 && 0 <= q < 25 && 0 <= r < 4 && 0 <= doy <= 365
    requires r < 3 ==> doy < 365
    requires q == 24 && c < 3 && r == 3 ==> doy < 365
    ensures 0 <= 100 * c + 4 * q + r < 400
    ensures doy < MarchYearLength(100 * c + 4 * q + r)
    ensures DayOfEra(100 * c + 4 * q + r, doy) == 36524 * c + 1461 * q + 365 * r + doy
  {
    var yoe := 100 * c + 4 * q + r;
    assert yoe / 4 == 25 * c + q;
    assert yoe / 100 == c;
    assert r == 3 && (q < 24 || c == 3) ==> IsLeapYear(yoe + 1);
  }

  /** The split of day `doc` of century `c` of an era into 4-year block,
      year of the block and day of the year (the fourth century of an era is
      one day longer than the other three). */
  lemma CenturySplit(c: int, doc: int)
    requires 0 <= c < 4 && 0 <= doc <= 36524 && (c < 3 ==> doc < 36524)
    ensures var q := doc / 1461;
      var doq := doc - 1461 * q;
      var r := if doq / 365 < 3 then doq / 365 else 3;
      && 0 <= 100 * c + 4 * q + r < 400
      && 0 <= doq - 365 * r < MarchYearLength(100 * c + 4 * q + r)
      && DayOfEra(100 * c + 4 * q + r, doq - 365 * r) == 36524 * c + doc
  {
    var q := doc / 1461;
    var doq := doc - 1461 * q;
    var r := if doq / 365 < 3 then doq / 365 else 3;
    assert 0 <= q <= 24 && 0 <= doq <= 1460 && (q == 24 && c < 3 ==> doq < 1460);
    assert 0 <= r <= 3 && 0 <= doq - 365 * r <= 365 && (r < 3 ==> doq - 365 * r < 365);
    BlockFacts(c, q, r, doq - 365 * r);
  }

  lemma EraSplit(doe: int)
    requires 0 <= doe < EraDays
    ensures var (yoe, doy) := SplitDayOfEra(doe);
      && 0 <= yoe < 400
      && 0 <= doy < MarchYearLength(yoe)
      && DayOfEra(yoe, doy) == doe
  {
    var c := if doe / 36524 < 3 then doe / 36524 else 3;
    assert 0 <= c <= 3 && 0 <= doe - 36524 * c <= 36524 && (c < 3 ==> doe - 36524 * c < 36524);
    CenturySplit(c, doe - 36524 * c);
  }

  lemma EraJoin(yoe: int, doy: int)
    requires 0 <= yoe < 400 && 0 <= doy < MarchYearLength(yoe)
    ensures 0 <= DayOfEra(yoe, doy) < EraDays
    ensures SplitDayOfEra(DayOfEra(yoe, doy)) == (yoe, doy)
  {
    var c := yoe / 100;
    var q := (yoe % 100) / 4;
    var r := yoe % 4;
    assert yoe == 100 * c + 4 * q + r;
    assert r < 3 ==> doy < 365;
    assert q == 24 && c < 3 && r == 3 ==> !IsLeapYear(yoe + 1);
    BlockFacts(c, q, r, doy);
    BlockJoin(c, q, r, doy);
  }

  /** The inner step of EraJoin, with the year of the era already split into
      century `c`, 4-year block `q` and year `r` of the block. */
  lemma BlockJoin(c: int, q: int, r: int, doy: int)
    requires 0 <= c < 4 && 0 <= q < 25 && 0 <= r < 4 && 0 <= doy <= 365
    requires r < 3 ==> doy < 365
    requires q == 24 && c < 3 && r == 3 ==> doy < 365
    ensures var doe := 36524 * c + 1461 * q + 365 * r + doy;
      && 0 <= doe < EraDays
      && SplitDayOfEra(doe) == (100 * c + 4 * q + r, doy)
  {
    var doc := 1461 * q + 365 * r + doy;
    assert doc < (if c < 3 then 36524 else 36525);
    var doe := 36524 * c + doc;
    assert doe / 36524 == c || (c == 3 && doe / 36524 == 4);
    assert doc / 1461 == q;
    assert (365 * r + doy) / 365 == r || (r == 3 && (365 * r + doy) / 365 == 4);
  }

  // ---------------------------------------------------------------------
  // Whole conversion
  // ---------------------------------------------------------------------

  /** Day number of a civil date whose month is in 1..12 (the day may lie
      outside its month: it then counts on into the following days, or back
      into the preceding ones). */
  function DaysFromCivil(c: Date): int
    requires 1 <= c.month <= 12
  {
    var y := if c.month <= 2 then c.year - 1 else c.year;
    var era := y / 400;
    var yoe := y % 400;
    var mp := (c.month + 9) % 12;
    era * EraDays + DayOfEra(yoe, DayOfMarchYear(mp, c.day)) - EpochShift
  }

  /** Civil date of a day number. */
  function CivilFromDays(n: int): (c: Date)
    ensures Valid(c)
  {
    var z := n + EpochShift;
    var era := z / EraDays;
    var doe := z % EraDays;
    var (yoe, doy) := SplitDayOfEra(doe);
    EraSplit(doe);
    MarchPartsValid(era, yoe, doy);
    FromMarchParts(era, yoe, doy)
  }

  lemma ShiftMod4(y: int, k: int)
    ensures (4 * k + y) % 4 == y % 4
  {
  }

  lemma ShiftMod100(y: int, k: int)
    ensures (100 * k + y) % 100 == y % 100
  {
  }

  lemma ShiftMod400(y: int, k: int)
    ensures (400 * k + y) % 400 == y % 400
  {
  }

  /** Shifting a year by whole eras keeps it leap or common. */
  lemma LeapEra(y: int, era: int)
    ensures IsLeapYear(era * 400 + y) == IsLeapYear(y)
  {
    ShiftMod4(y, era * 100);
    ShiftMod100(y, era * 4);
    ShiftMod400(y, era);
  }

  /** Civil month (1..12) of the month with March-based index `mp`. */
  function CivilMonth(mp: int): int {
    if mp < 10 then mp + 3 else mp - 9
  }

  lemma CivilMonthIndex(mp: int, y: int)
    requires 0 <= mp < 12
    ensures 1 <= CivilMonth(mp) <= 12
    ensures (CivilMonth(mp) + 9) % 12 == mp
    ensures CivilMonth(mp) <= 2 <==> mp >= 10
    ensures CivilMonth(mp) == 2 <==> mp == 11
    ensures CivilMonth(mp) != 2 ==> DaysInMonth(y, CivilMonth(mp)) == MarchMonthMax(mp)
  {
  }

  lemma MarchIndexMonth(m: int, y: int)
    requires 1 <= m <= 12
    ensures 0 <= (m + 9) % 12 < 12
    ensures CivilMonth((m + 9) % 12) == m
    ensures m != 2 ==> DaysInMonth(y, m) == MarchMonthMax((m + 9) % 12)
    ensures m == 2 <==> (m + 9) % 12 == 11
  {
  }

  lemma EraOf(era: int, yoe: int)
    requires 0 <= yoe < 400
    ensures (era * 400 + yoe) / 400 == era
    ensures (era * 400 + yoe) % 400 == yoe
  {
  }

  /** The date of day `doy` of March-based year `yoe` of era `era`. */
  function FromMarchParts(era: int, yoe: int, doy: int): Date {
    var mp := MarchMonthOf(doy);
    var m := CivilMonth(mp);
    Date(era * 400 + yoe + (if m <= 2 then 1 else 0), m, doy - (153 * mp + 2) / 5 + 1)
  }

  /** DaysFromCivil, given the split of the March-based year into era and year of era. */
  lemma DaysFromCivilParts(c: Date, era: int, yoe: int)
    requires 1 <= c.month <= 12 && 0 <= yoe < 400
    requires (if c.month <= 2 then c.year - 1 else c.year) == era * 400 + yoe
    ensures DaysFromCivil(c) == era * EraDays + DayOfEra(yoe, DayOfMarchYear((c.month + 9) % 12, c.day)) - EpochShift
  {
    EraOf(era, yoe);
  }

  lemma MarchPartsValid(era: int, yoe: int, doy: int)
    requires 0 <= yoe < 400 && 0 <= doy < MarchYearLength(yoe)
    ensures Valid(FromMarchParts(era, yoe, doy))
  {
    var mp := MarchMonthOf(doy);
    var d := doy - (153 * mp + 2) / 5 + 1;
    MonthSplit(doy);
    var m := CivilMonth(mp);
    var y := era * 400 + yoe + (if m <= 2 then 1 else 0);
    CivilMonthIndex(mp, y);
    LeapEra(yoe + 1, era);
  }

  lemma MarchPartsRoundTrip(era: int, yoe: int, doy: int)
    requires 0 <= yoe < 400 && 0 <= doy < MarchYearLength(yoe)
    ensures Valid(FromMarchParts(era, yoe, doy))
    ensures DaysFromCivil(FromMarchParts(era, yoe, doy)) == era * EraDays + DayOfEra(yoe, doy) - EpochShift
  {
    MarchPartsValid(era, yoe, doy);
    var c := FromMarchParts(era, yoe, doy);
    var mp := MarchMonthOf(doy);
    assert 0 <= mp < 12 && DayOfMarchYear(mp, c.day) == doy by {
      MonthSplit(doy);
    }
    CivilMonthIndex(mp, c.year);
    DaysFromCivilParts(c, era, yoe);
  }

  /** Every day number names a valid date, and converting it back gives the
      same day number. */
  lemma CivilRoundTrip(n: int)
    ensures Valid(CivilFromDays(n))
    ensures DaysFromCivil(CivilFromDays(n)) == n
  {
    var z := n + EpochShift;
    var era := z / EraDays;
    var doe := z % EraDays;
    var (yoe, doy) := SplitDayOfEra(doe);
    assert CivilFromDays(n) == FromMarchParts(era, yoe, doy);
    EraSplit(doe);
    MarchPartsRoundTrip(era, yoe, doy);
  }

  /** Splits a valid date into era, year of era and day of year. */
  lemma MarchPartsOf(c: Date) returns (era: int, yoe: int, doy: int)
    requires Valid(c)
    ensures 0 <= yoe < 400 && 0 <= doy < MarchYearLength(yoe)
    ensures FromMarchParts(era, yoe, doy) == c
    ensures DaysFromCivil(c) == era * EraDays + DayOfEra(yoe, doy) - EpochShift
  {
    var y := if c.month <= 2 then c.year - 1 else c.year;
    era := y / 400;
    yoe := y % 400;
    var mp := (c.month + 9) % 12;
    doy := DayOfMarchYear(mp, c.day);
    MarchIndexMonth(c.month, c.year);
    MonthJoin(mp, c.day);
    LeapEra(yoe + 1, era);
    assert y == era * 400 + yoe;
    DaysFromCivilParts(c, era, yoe);
  }

  lemma EraDivMod(era: int, doe: int)
    requires 0 <= doe < EraDays
    ensures (era * EraDays + doe) / EraDays == era
    ensures (era * EraDays + doe) % EraDays == doe
  {
  }

  /** Every valid date is the date of its own day number. */
  lemma DaysRoundTrip(c: Date)
    requires Valid(c)
    ensures CivilFromDays(DaysFromCivil(c)) == c
  {
    var era, yoe, doy := MarchPartsOf(c);
    EraJoin(yoe, doy);
    var doe := DayOfEra(yoe, doy);
    EraDivMod(era, doe);
    assert CivilFromDays(DaysFromCivil(c)) == FromMarchParts(era, yoe, doy);
  }

  /** Within a month the day number grows by one per day, whether or not the
      day is inside the month. */
  lemma DaysFromCivilDayShift(y: int, m: int, d: int, k: int)
    requires 1 <= m <= 12
    ensures DaysFromCivil(Date(y, m, d + k)) == DaysFromCivil(Date(y, m, d)) + k
  {
  }

  // ---------------------------------------------------------------------
  // Order and succession
  // ---------------------------------------------------------------------

  /** Lexicographic order on (year, month, day). */
  predicate Before(a: Date, b: Date) {
    a.year < b.year
    || (a.year == b.year && a.month < b.month)
    || (a.year == b.year && a.month == b.month && a.day < b.day)
  }

  /** The calendar date following a valid date. */
  function NextDay(c: Date): Date
    requires Valid(c)
  {
    if c.day < DaysInMonth(c.year, c.month) then Date(c.year, c.month, c.day + 1)
    else if c.month < 12 then Date(c.year, c.month + 1, 1)
    else Date(c.year + 1, 1, 1)
  }

  /** Day number of 1 March of year `y` (a year in the March-based count). */
  function MarchYearStart(y: int): int {
    (y / 400) * EraDays + DayOfEra(y % 400, 0) - EpochShift
  }

  /** Inside an era, each March-based year starts where the previous one ends. */
  lemma EraYearStep(yoe: int)
    requires 0 <= yoe < 399
    ensures DayOfEra(yoe + 1, 0) == DayOfEra(yoe, 0) + MarchYearLength(yoe)
  {
  }

  lemma MarchYearStep(y: int)
    ensures MarchYearStart(y + 1) == MarchYearStart(y) + (if IsLeapYear(y + 1) then 366 else 365)
  {
    var era := y / 400;
    var yoe := y % 400;
    LeapEra(yoe + 1, era);
    if yoe < 399 {
      EraOf(era, yoe + 1);
      EraYearStep(yoe);
    } else {
      EraOf(era + 1, 0);
      assert DayOfEra(399, 0) == 145731;
    }
  }

  /** DaysFromCivil as the start of the March-based year plus the day of that year. */
  lemma DaysFromCivilMarch(c: Date)
    requires 1 <= c.month <= 12
    ensures DaysFromCivil(c)
      == MarchYearStart(if c.month <= 2 then c.year - 1 else c.year) + DayOfMarchYear((c.month + 9) % 12, c.day)
  {
  }

  lemma MonthStartStep(mp: int)
    requires 0 <= mp < 11
    ensures DayOfMarchYear(mp + 1, 1) == DayOfMarchYear(mp, MarchMonthMax(mp)) + 1
  {
  }

  lemma NextDayInMonth(c: Date)
    requires Valid(c) && c.day < DaysInMonth(c.year, c.month)
    ensures DaysFromCivil(NextDay(c)) == DaysFromCivil(c) + 1
  {
    DaysFromCivilDayShift(c.year, c.month, c.day, 1);
  }

  lemma NextDayEndOfFebruary(c: Date)
    requires Valid(c) && c.month == 2 && c.day == DaysInMonth(c.year, 2)
    ensures DaysFromCivil(NextDay(c)) == DaysFromCivil(c) + 1
  {
    assert NextDay(c) == Date(c.year, 3, 1);
    DaysFromCivilMarch(c);
    DaysFromCivilMarch(Date(c.year, 3, 1));
    MarchYearStep(c.year - 1);
  }

  lemma NextDayEndOfMonth(c: Date)
    requires Valid(c) && c.month != 2 && c.day == DaysInMonth(c.year, c.month)
    ensures DaysFromCivil(NextDay(c)) == DaysFromCivil(c) + 1
  {
    var next := NextDay(c);
    var mp := (c.month + 9) % 12;
    MarchIndexMonth(c.month, c.year);
    assert (next.month + 9) % 12 == mp + 1;
    assert (if next.month <= 2 then next.year - 1 else next.year) == (if c.month <= 2 then c.year - 1 else c.year);
    DaysFromCivilMarch(c);
    DaysFromCivilMarch(next);
    MonthStartStep(mp);
  }

  lemma NextDayNumber(c: Date)
    requires Valid(c)
    ensures Valid(NextDay(c))
    ensures DaysFromCivil(NextDay(c)) == DaysFromCivil(c) + 1
  {
    if c.day < DaysInMonth(c.year, c.month) {
      NextDayInMonth(c);
    } else if c.month == 2 {
      NextDayEndOfFebruary(c);
    } else {
      NextDayEndOfMonth(c);
    }
  }

  /** The day after day `n` is the calendar successor of the date of `n`. */
  lemma CivilSuccessor(n: int)
    ensures CivilFromDays(n + 1) == NextDay(CivilFromDays(n))
  {
    var c := CivilFromDays(n);
    CivilRoundTrip(n);
    NextDayNumber(c);
    SameDayNumber(NextDay(c), n + 1);
  }

  /** The valid date whose day number is `n` is the date of `n`. */
  lemma SameDayNumber(c: Date, n: int)
    requires Valid(c) && DaysFromCivil(c) == n
    ensures CivilFromDays(n) == c
  {
    DaysRoundTrip(c);
  }

  lemma BeforeTransitive(a: Date, b: Date, c: Date)
    requires Before(a, b) && Before(b, c)
    ensures Before(a, c)
  {
  }

  lemma BeforeNextDay(c: Date)
    requires Valid(c)
    ensures Before(c, NextDay(c))
  {
  }

  /** A sequence of dates that grows at every step grows over any distance. */
  lemma {:induction false} StepsAscend(f: int -> Date, n: int, n': int)
    requires forall k :: Before(f(k), f(k + 1))
    requires n < n'
    ensures Before(f(n), f(n'))
    decreases n' - n
  {
    if n + 1 < n' {
      StepsAscend(f, n + 1, n');
      BeforeTransitive(f(n), f(n + 1), f(n'));
    }
  }

  /** Day numbers and calendar dates are ordered alike. */
  lemma CivilMonotone(n: int, n': int)
    requires n < n'
    ensures Before(CivilFromDays(n), CivilFromDays(n'))
  {
    forall k: int
      ensures Before(CivilFromDays(k), CivilFromDays(k + 1))
    {
      CivilSuccessor(k);
      BeforeNextDay(CivilFromDays(k));
    }
    StepsAscend(CivilFromDays, n, n');
  }

  lemma CivilOrder(n: int, n': int)
    ensures n < n' <==> Before(CivilFromDays(n), CivilFromDays(n'))
  {
    if n < n' {
      CivilMonotone(n, n');
    } else if n' < n {
      CivilMonotone(n', n);
    }
  }
}

=== FILE: dateformat.dfy ===
/**
 The `YYYY-MM-DD` day strings of the task board: how `formatDate` writes a
 day, how `formatDateDisplay` and `getWeekLabel` read one back through
 `split("-")` and the `Date` constructor, and the labels they build.
 */
module DateFormat {
  import opened Wrappers
  import opened Text
  import opened Decimal
  import opened Civil
  import opened JsDate

  /** Column header names, Monday first. */
  const DAY_NAMES: seq<string> := ["Mon", "Tue", "Wed", "Thu", "Fri", "Sat", "Sun"]

  /** Month abbreviations, indexed by `getMonth()`. */
  const MONTH_NAMES: seq<string> :=
    ["Jan", "Feb", "Mar", "Apr", "May", "Jun", "Jul", "Aug", "Sep", "Oct", "Nov", "Dec"]

  /** The day string of a calendar date: the year as `String` writes it, then
      month and day of the month padded to two digits. */
  function DateText(c: Date): string
    requires Valid(c)
  {
    IntToString(c.year) + "-" + PadZeros(NatToString(c.month), 2) + "-" + PadZeros(NatToString(c.day), 2)
  }

  /** `formatDate(date)`. */
  function FormatDate(t: int): string {
    DateText(CivilFromDays(t))
  }

  /** Piece `k` of a split string as a number; a missing piece is `undefined`, which is NaN. */
  function Part(parts: seq<string>, k: nat): (r: Option<int>)
    ensures k >= |parts| ==> r == None
  {
    if k < |parts| then ToNumber(parts[k]) else None
  }

  /** `var parts = s.split("-"); new Date(parts[0], parts[1] - 1, parts[2])`:
      the day the string names, or None for an Invalid Date. */
  function ParseDate(s: string): Option<int> {
    var parts := Split(s, '-');
    var y := Part(parts, 0);
    var m := Part(parts, 1);
    var d := Part(parts, 2);
    if y.Some? && m.Some? && d.Some? then Some(Construct(y.value, m.value - 1, d.value)) else None
  }

  /** The column index of a `getDay()` value: Monday 0 up to Sunday 6. */
  function MondayIndex(w: int): (k: int)
    requires 0 <= w < 7
    ensures 0 <= k < 7
    ensures (k + 1) % 7 == w
  {
    if w == 0 then 6 else w - 1
  }

  /** What `formatDateDisplay` shows: weekday name, month name, day of the month. */
  datatype DayLabel = DayLabel(dayName: string, monthName: string, day: int)

  /** `formatDateDisplay(dateStr)`; None stands for the label of an Invalid Date. */
  function FormatDateDisplay(s: string): Option<DayLabel> {
    match ParseDate(s)
    case None => None
    case Some(t) => Some(DayLabel(DAY_NAMES[MondayIndex(WeekDay(t))], MONTH_NAMES[MonthIndex(t)], DayOfMonth(t)))
  }

  /** One end of a week label: month name and day of the month. */
  datatype MonthDay = MonthDay(monthName: string, day: int)

  /** What `getWeekLabel` shows for one end of the window; None for an Invalid Date. */
  function MonthDayOf(s: string): Option<MonthDay> {
    match ParseDate(s)
    case None => None
    case Some(t) => Some(MonthDay(MONTH_NAMES[MonthIndex(t)], DayOfMonth(t)))
  }

  // ---------------------------------------------------------------------
  // Shape of the day strings
  // ---------------------------------------------------------------------

  /** Three digit fields joined by dashes. */
  function Fields(ys: string, ms: string, ds: string): string {
    ys + "-" + ms + "-" + ds
  }

  lemma DigitsNoDash(s: string)
    requires IsDigits(s)
    ensures '-' !in s
  {
    forall k | 0 <= k < |s|
      ensures s[k] != '-'
    {
      assert IsDigit(s[k]);
    }
  }

  /** For a year that is not negative the text is the year's digits, a dash,
      two month digits, a dash and two day digits. */
  lemma DateTextShape(c: Date)
    requires Valid(c) && c.year >= 0
    ensures DateText(c) == Fields(NatToString(c.year), FixedDigits(c.month, 2), FixedDigits(c.day, 2))
  {
    var ys := IntToString(c.year);
    var ms := PadZeros(NatToString(c.month), 2);
    var ds := PadZeros(NatToString(c.day), 2);
    assert DateText(c) == ys + "-" + ms + "-" + ds;
    assert ys == NatToString(c.year);
    assert ms == FixedDigits(c.month, 2) by { TwoDigits(c.month); }
    assert ds == FixedDigits(c.day, 2) by { TwoDigits(c.day); }
  }

  lemma FormatDateShape(t: int)
    requires FullYear(t) >= 0
    ensures var c := CivilFromDays(t);
      FormatDate(t) == Fields(NatToString(c.year), FixedDigits(c.month, 2), FixedDigits(c.day, 2))
  {
    DateTextShape(CivilFromDays(t));
  }

  /** With a four-digit year the day string is exactly `YYYY-MM-DD`. */
  lemma FormatDateFourDigitYear(t: int)
    requires 1000 <= FullYear(t) <= 9999
    ensures var c := CivilFromDays(t);
      FormatDate(t) == Fields(FixedDigits(c.year, 4), FixedDigits(c.month, 2), FixedDigits(c.day, 2))
    ensures |FormatDate(t)| == 10 && FormatDate(t)[4] == '-' && FormatDate(t)[7] == '-'
  {
    var c := CivilFromDays(t);
    DateTextShape(c);
    assert NatToString(c.year) == FixedDigits(c.year, 4) by { NatToStringWidth(c.year, 4); }
    FieldsLayout(FixedDigits(c.year, 4), FixedDigits(c.month, 2), FixedDigits(c.day, 2));
  }

  lemma FieldsLayout(ys: string, ms: string, ds: string)
    requires |ys| == 4 && |ms| == 2 && |ds| == 2
    ensures |Fields(ys, ms, ds)| == 10 && Fields(ys, ms, ds)[4] == '-' && Fields(ys, ms, ds)[7] == '-'
  {
  }

  // ---------------------------------------------------------------------
  // Reading a day string back
  // ---------------------------------------------------------------------

  /** Three digit fields joined by dashes are read as year, month and day. */
  lemma ParseFields(ys: string, ms: string, ds: string, y: int, m: int, d: int)
    requires IsDigits(ys) && IsDigits(ms) && IsDigits(ds)
    requires DigitsValue(ys) == y && DigitsValue(ms) == m && DigitsValue(ds) == d
    ensures ParseDate(Fields(ys, ms, ds)) == Some(Construct(y, m - 1, d))
  {
    DigitsNoDash(ys);
    DigitsNoDash(ms);
    DigitsNoDash(ds);
    SplitThree(ys, ms, ds, '-');
  }

  /** The text of a date is read back as the constructor call on its own fields. */
  lemma ParseDateText(c: Date)
    requires Valid(c) && c.year >= 0
    ensures ParseDate(DateText(c)) == Some(Construct(c.year, c.month - 1, c.day))
  {
    var ys, ms, ds := NatToString(c.year), FixedDigits(c.month, 2), FixedDigits(c.day, 2);
    DateTextShape(c);
    NatToStringValue(c.year);
    FixedDigitsValue(c.month, 2);
    FixedDigitsValue(c.day, 2);
    ParseFields(ys, ms, ds, c.year, c.month, c.day);
  }

  /** Parsing the string of a day gives the day back, for every year from 100 on. */
  lemma ParseFormatDate(t: int)
    requires FullYear(t) >= 100
    ensures ParseDate(FormatDate(t)) == Some(t)
  {
    var c := CivilFromDays(t);
    ParseDateText(c);
    MakeDayCivil(c.year, c.month, c.day);
    CivilRoundTrip(t);
  }

  /** Years 0..99 do not survive the trip: the constructor reads them as 1900..1999. */
  lemma ParseFormatDateTwoDigitYear(t: int)
    requires 0 <= FullYear(t) <= 99
    requires !(FullYear(t) == 0 && MonthIndex(t) == 1 && DayOfMonth(t) == 29)
    ensures ParseDate(FormatDate(t)).Some?
    ensures var c := CivilFromDays(t);
      CivilFromDays(ParseDate(FormatDate(t)).value) == Date(1900 + c.year, c.month, c.day)
  {
    var c := CivilFromDays(t);
    ParseDateText(c);
    ConstructTwoDigitYear(c);
  }

  /** The string of 29 February of year 0 reads back as 1 March 1900. */
  lemma ParseFormatDateYearZeroLeapDay(t: int)
    requires FullYear(t) == 0 && MonthIndex(t) == 1 && DayOfMonth(t) == 29
    ensures ParseDate(FormatDate(t)).Some?
    ensures CivilFromDays(ParseDate(FormatDate(t)).value) == Date(1900, 3, 1)
  {
    var c := CivilFromDays(t);
    ConstructLeapDayRollover(c.year);
    ParseDateText(c);
  }

  /** Two days with the same string are the same day (years from 100 on). */
  lemma FormatDateInjective(a: int, b: int)
    requires FullYear(a) >= 100 && FullYear(b) >= 100
    requires FormatDate(a) == FormatDate(b)
    ensures a == b
  {
    ParseFormatDate(a);
    ParseFormatDate(b);
  }

  /** The header of a day's column names that day's weekday, month and day of the month. */
  lemma DisplayFormatDate(t: int)
    requires FullYear(t) >= 100
    ensures FormatDateDisplay(FormatDate(t))
      == Some(DayLabel(DAY_NAMES[MondayIndex(WeekDay(t))], MONTH_NAMES[MonthIndex(t)], DayOfMonth(t)))
  {
    ParseFormatDate(t);
  }

  /** The end of a week label names the day's month and day of the month. */
  lemma MonthDayFormatDate(t: int)
    requires FullYear(t) >= 100
    ensures MonthDayOf(FormatDate(t)) == Some(MonthDay(MONTH_NAMES[MonthIndex(t)], DayOfMonth(t)))
  {
    ParseFormatDate(t);
  }

  // ---------------------------------------------------------------------
  // Order of day strings
  // ---------------------------------------------------------------------

  /** Equally wide digit fields followed by anything: the fields decide unless equal. */
  lemma FieldOrder(x: nat, y: nat, w: nat, rx: string, ry: string)
    requires x < Pow10(w) && y < Pow10(w)
    ensures x != y ==> (LexLe(FixedDigits(x, w) + rx, FixedDigits(y, w) + ry) <==> x < y)
    ensures x == y ==> (LexLe(FixedDigits(x, w) + rx, FixedDigits(y, w) + ry) <==> LexLe(rx, ry))
  {
    LexLeAppend(FixedDigits(x, w), rx, FixedDigits(y, w), ry);
    FixedDigitsOrder(x, y, w);
    if FixedDigits(x, w) == FixedDigits(y, w) {
      FixedDigitsInjective(x, y, w);
    }
  }

  lemma DashOrder(rx: string, ry: string)
    ensures LexLe("-" + rx, "-" + ry) <==> LexLe(rx, ry)
  {
    LexLeAppend("-", rx, "-", ry);
  }

  /** `MM-DD` strings sort as (month, day) pairs. */
  lemma MonthDayOrder(m1: nat, d1: nat, m2: nat, d2: nat)
    requires m1 < 100 && d1 < 100 && m2 < 100 && d2 < 100
    ensures LexLe(FixedDigits(m1, 2) + ("-" + FixedDigits(d1, 2)), FixedDigits(m2, 2) + ("-" + FixedDigits(d2, 2)))
      <==> m1 < m2 || (m1 == m2 && d1 <= d2)
  {
    var a, b := FixedDigits(d1, 2), FixedDigits(d2, 2);
    FieldOrder(m1, m2, 2, "-" + a, "-" + b);
    DashOrder(a, b);
    FieldOrder(d1, d2, 2, [], []);
    assert a + [] == a && b + [] == b;
  }

  lemma FieldsAssoc(ys: string, ms: string, ds: string)
    ensures Fields(ys, ms, ds) == ys + ("-" + (ms + ("-" + ds)))
  {
  }

  /** `YYYY-MM-DD` strings sort as (year, month, day) triples. */
  lemma FieldsOrder(y1: nat, m1: nat, d1: nat, y2: nat, m2: nat, d2: nat)
    requires y1 < 10000 && m1 < 100 && d1 < 100 && y2 < 10000 && m2 < 100 && d2 < 100
    ensures LexLe(Fields(FixedDigits(y1, 4), FixedDigits(m1, 2), FixedDigits(d1, 2)),
                  Fields(FixedDigits(y2, 4), FixedDigits(m2, 2), FixedDigits(d2, 2)))
      <==> y1 < y2 || (y1 == y2 && (m1 < m2 || (m1 == m2 && d1 <= d2)))
  {
    var r1 := FixedDigits(m1, 2) + ("-" + FixedDigits(d1, 2));
    var r2 := FixedDigits(m2, 2) + ("-" + FixedDigits(d2, 2));
    FieldsAssoc(FixedDigits(y1, 4), FixedDigits(m1, 2), FixedDigits(d1, 2));
    FieldsAssoc(FixedDigits(y2, 4), FixedDigits(m2, 2), FixedDigits(d2, 2));
    FieldOrder(y1, y2, 4, "-" + r1, "-" + r2);
    DashOrder(r1, r2);
    MonthDayOrder(m1, d1, m2, d2);
  }

  /** Day strings with four-digit years sort as the days do. This is why the
      realtime database's range query on the `day` field selects a span of days. */
  lemma FormatDateOrder(a: int, b: int)
    requires 1000 <= FullYear(a) <= 9999 && 1000 <= FullYear(b) <= 9999
    ensures LexLe(FormatDate(a), FormatDate(b)) <==> a <= b
  {
    var ca, cb := CivilFromDays(a), CivilFromDays(b);
    FormatDateFourDigitYear(a);
    FormatDateFourDigitYear(b);
    FieldsOrder(ca.year, ca.month, ca.day, cb.year, cb.month, cb.day);
    CivilOrder(b, a);
  }
}

=== FILE: decimal.dfy ===
/**
 Decimal text of integers, as JavaScript writes and reads it for the date
 strings of the task board: `String(n)`, `padStart(2, "0")`, and the
 conversion of a string operand to a number (`Number(s)`, which the `Date`
 constructor and the `-` operator apply).
 */
module Decimal {
  import opened Wrappers
  import opened Text

  predicate IsDigit(c: char) {
    '0' <= c <= '9'
  }

  predicate IsDigits(s: string) {
    forall k :: 0 <= k < |s| ==> IsDigit(s[k])
  }

  function DigitChar(d: int): (c: char)
    requires 0 <= d < 10
    ensures IsDigit(c)
  {
    (48 + d) as char
  }

  function DigitValue(c: char): (d: int)
    requires IsDigit(c)
    ensures 0 <= d < 10
    ensures DigitChar(d) == c
  {
    (c as int) - 48
  }

  function Pow10(w: nat): (p: nat)
    ensures p >= 1
  {
    if w == 0 then 1 else 10 * Pow10(w - 1)
  }

  /** Value of a string of decimal digits; the empty string has value 0. */
  function DigitsValue(s: string): (n: nat)
    requires IsDigits(s)
    ensures n < Pow10(|s|)
  {
    if s == [] then 0 else 10 * DigitsValue(s[..|s| - 1]) + DigitValue(s[|s| - 1])
  }

  /** The last `w` decimal digits of `n`, with leading zeros. */
  function FixedDigits(n: nat, w: nat): (s: string)
    ensures |s| == w && IsDigits(s)
  {
    if w == 0 then "" else FixedDigits(n / 10, w - 1) + [DigitChar(n % 10)]
  }

  /** JavaScript `String(n)` for a non-negative integer: the shortest digit string. */
  function NatToString(n: nat): (s: string)
    ensures |s| >= 1 && IsDigits(s)
    ensures s[0] == '0' ==> n == 0
  {
    if n < 10 then [DigitChar(n)] else NatToString(n / 10) + [DigitChar(n % 10)]
  }

  /** JavaScript `String(i)` for any integer: a minus sign before negative ones. */
  function IntToString(i: int): (s: string)
    ensures |s| >= 1
    ensures '-' in s <==> i < 0
  {
    if i < 0 then "-" + NatToString(-i) else NatToString(i)
  }

  /** JavaScript `s.padStart(width, "0")`: zeros in front up to `width` characters. */
  function PadZeros(s: string, width: nat): (r: string)
    ensures |r| == if |s| >= width then |s| else width
    ensures r[|r| - |s|..] == s
    ensures forall k :: 0 <= k < |r| - |s| ==> r[k] == '0'
    decreases width - |s|
  {
    if |s| >= width then s else PadZeros("0" + s, width)
  }

  /** JavaScript `Number(s)` on the strings the date code can meet: a digit
      string (the empty one included) has its decimal value; anything else is
      NaN, here None. */
  function ToNumber(s: string): (r: Option<int>)
    ensures r.Some? <==> IsDigits(s)
    ensures r.Some? ==> 0 <= r.value < Pow10(|s|)
  {
    if IsDigits(s) then Some(DigitsValue(s)) else None
  }

  // ---------------------------------------------------------------------
  // Round trips
  // ---------------------------------------------------------------------

  lemma {:induction false} FixedDigitsValue(n: nat, w: nat)
    requires n < Pow10(w)
    ensures DigitsValue(FixedDigits(n, w)) == n
  {
    if w > 0 {
      FixedDigitsValue(n / 10, w - 1);
      var s := FixedDigits(n, w);
      assert s[..|s| - 1] == FixedDigits(n / 10, w - 1);
    }
  }

  /** Reading back what `String(n)` wrote gives `n`. */
  lemma {:induction false} NatToStringValue(n: nat)
    ensures DigitsValue(NatToString(n)) == n
  {
    if n >= 10 {
      NatToStringValue(n / 10);
      var s := NatToString(n);
      assert s[..|s| - 1] == NatToString(n / 10);
    }
  }

  /** A number with `w` digits is written with exactly `w` characters. */
  lemma {:induction false} NatToStringWidth(n: nat, w: nat)
    requires 1 <= w && Pow10(w - 1) <= n < Pow10(w)
    ensures NatToString(n) == FixedDigits(n, w)
  {
    if w > 1 {
      NatToStringWidth(n / 10, w - 1);
    }
  }

  /** `String(n).padStart(2, "0")` for n below 100 is its two-digit form. */
  lemma TwoDigits(n: nat)
    requires n < 100
    ensures PadZeros(NatToString(n), 2) == FixedDigits(n, 2)
  {
    if n < 10 {
      var s := NatToString(n);
      assert s == [DigitChar(n)];
      assert PadZeros(s, 2) == PadZeros("0" + s, 2) == "0" + s;
      assert FixedDigits(n, 2) == FixedDigits(0, 1) + [DigitChar(n)];
      assert FixedDigits(0, 1) == [DigitChar(0)] == "0";
    } else {
      NatToStringWidth(n, 2);
    }
  }

  // ---------------------------------------------------------------------
  // Order
  // ---------------------------------------------------------------------

  lemma FixedDigitsInjective(x: nat, y: nat, w: nat)
    requires x < Pow10(w) && y < Pow10(w)
    requires FixedDigits(x, w) == FixedDigits(y, w)
    ensures x == y
  {
    FixedDigitsValue(x, w);
    FixedDigitsValue(y, w);
  }

  /** Equally wide digit strings sort as their values do. */
  lemma {:induction false} FixedDigitsOrder(x: nat, y: nat, w: nat)
    requires x < Pow10(w) && y < Pow10(w)
    ensures LexLe(FixedDigits(x, w), FixedDigits(y, w)) <==> x <= y
  {
    if w > 0 {
      var p := FixedDigits(x / 10, w - 1);
      var q := FixedDigits(y / 10, w - 1);
      LexLeAppend(p, [DigitChar(x % 10)], q, [DigitChar(y % 10)]);
      if x / 10 == y / 10 {
        assert LexLe([DigitChar(x % 10)], [DigitChar(y % 10)]) <==> x % 10 <= y % 10;
      } else {
        FixedDigitsOrder(x / 10, y / 10, w - 1);
        if p == q {
          FixedDigitsInjective(x / 10, y / 10, w - 1);
        }
      }
    }
  }
}

=== FILE: jsdate.dfy ===
/**
 The parts of the ECMAScript `Date` object that the task board uses, on a
 `Date` taken as the integer day number of its local calendar day (time of
 day, time zone and the ±100 000 000-day range of `Date` are not modelled).
 */
module JsDate {
  import opened Civil

  /** `getDay()`: 0 for Sunday up to 6 for Saturday. Day 0, 1970-01-01, was a Thursday. */
  function WeekDay(t: int): (w: int)
    ensures 0 <= w < 7
  {
    (t + 4) % 7
  }

  /** `getFullYear()`. */
  function FullYear(t: int): int {
    CivilFromDays(t).year
  }

  /** `getMonth()`: 0 for January up to 11 for December. */
  function MonthIndex(t: int): (m: int)
    ensures 0 <= m < 12
  {
    CivilFromDays(t).month - 1
  }

  /** `getDate()`: the day of the month. */
  function DayOfMonth(t: int): (d: int)
    ensures 1 <= d <= 31
  {
    CivilFromDays(t).day
  }

  /** ECMAScript MakeDay(year, month, date): a month outside 0..11 carries into
      the year, and a date outside the month counts on from the month's first day. */
  function MakeDay(year: int, month: int, date: int): int {
    DaysFromCivil(Date(year + month / 12, month % 12 + 1, 1)) + date - 1
  }

  /** `t.setDate(date)`: the same year and month, with the day of the month
      replaced by `date`, which may overflow into neighbouring months. The
      result is `t` moved by the difference between `date` and the old day of
      the month. */
  function SetDate(t: int, date: int): (r: int)
    ensures r == t + (date - DayOfMonth(t))
  {
    MakeDayShift(CivilFromDays(t), date);
    CivilRoundTrip(t);
    MakeDay(FullYear(t), MonthIndex(t), date)
  }

  /** MakeDay on the year and month of a valid date `c` lands `date - c.day` days from it. */
  lemma MakeDayShift(c: Date, date: int)
    requires Valid(c)
    ensures MakeDay(c.year, c.month - 1, date) == DaysFromCivil(c) + (date - c.day)
  {
    MakeDayCivil(c.year, c.month, date);
    DaysFromCivilDayShift(c.year, c.month, c.day, date - c.day);
  }

  /** `new Date(year, monthIndex, date)`: a year 0..99 is taken as 1900..1999. */
  function Construct(year: int, monthIndex: int, date: int): int {
    MakeDay(if 0 <= year <= 99 then 1900 + year else year, monthIndex, date)
  }

  // ---------------------------------------------------------------------
  // Properties
  // ---------------------------------------------------------------------

  /** The weekday advances by one each day, cyclically. */
  lemma WeekDayStep(t: int, k: int)
    ensures WeekDay(t + k) == (WeekDay(t) + k) % 7
  {
  }

  /** The epoch the day numbers count from is 1970-01-01, a Thursday. */
  lemma EpochIsThursday()
    ensures DaysFromCivil(Date(1970, 1, 1)) == 0
    ensures WeekDay(DaysFromCivil(Date(1970, 1, 1))) == 4
  {
  }

  /** MakeDay with a month index in 0..11 is the day number of that date. */
  lemma MakeDayCivil(y: int, m: int, d: int)
    requires 1 <= m <= 12
    ensures MakeDay(y, m - 1, d) == DaysFromCivil(Date(y, m, d))
  {
    assert Date(y + (m - 1) / 12, (m - 1) % 12 + 1, 1) == Date(y, m, 1);
    DaysFromCivilDayShift(y, m, 1, d - 1);
  }

  /** The constructor gives back a valid date from its parts, unless the
      year is one of 0..99. */
  lemma ConstructValid(c: Date)
    requires Valid(c) && !(0 <= c.year <= 99)
    ensures CivilFromDays(Construct(c.year, c.month - 1, c.day)) == c
  {
    MakeDayCivil(c.year, c.month, c.day);
    DaysRoundTrip(c);
  }

  /** The constructor reads a year 0..99 as 1900..1999. Every such date
      exists in the later century too, except 29 February of year 0: 1900 is
      not a leap year (see ConstructLeapDayRollover). */
  lemma ConstructTwoDigitYear(c: Date)
    requires Valid(c) && 0 <= c.year <= 99 && !(c.year == 0 && c.month == 2 && c.day == 29)
    ensures CivilFromDays(Construct(c.year, c.month - 1, c.day)) == Date(1900 + c.year, c.month, c.day)
  {
    var shifted := Date(1900 + c.year, c.month, c.day);
    assert Valid(shifted) by {
      if c.month == 2 && c.day == 29 {
        assert IsLeapYear(c.year);
        assert IsLeapYear(shifted.year);
      } else {
        assert c.month != 2 ==> DaysInMonth(shifted.year, c.month) == DaysInMonth(c.year, c.month);
      }
    }
    MakeDayCivil(shifted.year, c.month, c.day);
    DaysRoundTrip(shifted);
  }

  /** In a common year, day 29 of February is 1 March. */
  lemma MakeDayLeapDayCommon(y: int)
    requires !IsLeapYear(y)
    ensures MakeDay(y, 1, 29) == DaysFromCivil(Date(y, 3, 1))
  {
    var last := Date(y, 2, 28);
    MakeDayCivil(y, 2, 29);
    DaysFromCivilDayShift(y, 2, 28, 1);
    NextDayNumber(last);
  }

  /** `new Date(y, 1, 29)` for a leap year `y` in 0..99 whose later century
      year is not a leap year: that is year 0 only, and the date rolls over to
      1 March 1900. */
  lemma ConstructLeapDayRollover(y: int)
    requires 0 <= y <= 99 && IsLeapYear(y) && !IsLeapYear(1900 + y)
    ensures y == 0
    ensures CivilFromDays(Construct(y, 1, 29)) == Date(1900 + y, 3, 1)
  {
    assert y == 0;
    assert Construct(0, 1, 29) == MakeDay(1900, 1, 29);
    MakeDayLeapDayCommon(1900);
    DaysRoundTrip(Date(1900, 3, 1));
  }
}

=== FILE: subscription.dfy ===
/**
 The board's session: the week offset, the label, the live query on the
 `tasks` node and the cache its snapshots fill. `refreshWeek` recomputes the
 window and moves the one listener onto it; each `value` snapshot replaces
 the cache with the records the query selects and redraws the window the
 listener was made for. Callbacks are named by handles the session hands out
 in order, so a callback that was switched off is never confused with a live
 one; the realtime database itself is the `store` a snapshot is taken of.
 */
module Subscription {
  import opened Wrappers
  import opened Text
  import opened Civil
  import opened JsDate
  import opened DateFormat
  import opened Week
  import opened Tasks
  import opened View

  type Handle = nat

  /** `db.ref("tasks").orderByChild("day").startAt(start).endAt(end)`, and the
      window its callback redraws. */
  datatype Query = Query(start: string, end: string, dates: seq<string>)

  datatype Session = Session(
    offset: int,
    title: WeekLabel,
    current: Option<Handle>,
    active: map<Handle, Query>,
    next: Handle,
    cache: Store,
    shown: seq<string>)

  /** The state before `initApp` runs `refreshWeek`. */
  const Initial := Session(0, ThisWeek, None, map[], 0, map[], [])

  /** The listener registry holds at most the current callback, and handles
      not yet handed out are not registered. */
  predicate Single(s: Session) {
    (if s.current.Some? then s.active.Keys == {s.current.value} else s.active == map[])
    && (s.current.Some? ==> s.current.value < s.next)
  }

  /** The query keeps a record exactly when its `day` is a string from
      `start` to `end` inclusive in the database's string order; a record
      without a `day` sorts before every string. */
  predicate InRange(day: Option<string>, start: string, end: string) {
    day.Some? && LexLe(start, day.value) && LexLe(day.value, end)
  }

  // ---------------------------------------------------------------------
  // Transitions
  // ---------------------------------------------------------------------

  /** The children of the snapshot of the query over `store`. */
  function Select(store: Store, start: string, end: string): (r: Store)
    ensures forall id :: id in r <==> id in store && InRange(store[id].day, start, end)
    ensures forall id :: id in r ==> r[id] == store[id]
  {
    map id | id in store && InRange(store[id].day, start, end) :: store[id]
  }

  /** `listenToTasks(weekDates)`: switch off the current callback, then
      register a new one on the range from the first to the seventh date. */
  function Listen(s: Session, dates: seq<string>): (r: Session)
    requires |dates| == 7
    ensures r.current == Some(s.next) && r.next == s.next + 1 && s.next in r.active
    ensures r.active.Keys == (s.active.Keys - (if s.current.Some? then {s.current.value} else {})) + {s.next}
    ensures r.active[s.next] == Query(dates[0], dates[6], dates)
    ensures forall h :: h in r.active && h != s.next ==> h in s.active && r.active[h] == s.active[h]
    ensures r.offset == s.offset && r.title == s.title && r.cache == s.cache && r.shown == s.shown
  {
    var rest := if s.current.Some? then s.active - {s.current.value} else s.active;
    s.(current := Some(s.next), active := rest[s.next := Query(dates[0], dates[6], dates)], next := s.next + 1)
  }

  /** The callback `h` receives a snapshot of `store`: a live callback makes
      the cache exactly the records its query selects and redraws its window;
      a callback that was switched off is never called, so nothing changes. */
  function Deliver(s: Session, h: Handle, store: Store): (r: Session)
    ensures h !in s.active ==> r == s
    ensures h in s.active ==>
      && r.cache == Select(store, s.active[h].start, s.active[h].end)
      && r.shown == s.active[h].dates
    ensures r.offset == s.offset && r.title == s.title && r.current == s.current
      && r.active == s.active && r.next == s.next
  {
    if h in s.active then
      var q := s.active[h];
      s.(cache := Select(store, q.start, q.end), shown := q.dates)
    else s
  }

  /** `refreshWeek()` on the day `today`: the window of the current offset,
      its label, and a listener on it. */
  function Refresh(s: Session, today: int): (r: Session)
    ensures r.offset == s.offset
    ensures r.title.ThisWeek? <==> s.offset == 0
    ensures r.current == Some(s.next) && s.next in r.active
    ensures var dates := WeekDates(today, s.offset);
      r.active[s.next] == Query(dates[0], dates[6], dates)
  {
    var dates := WeekDates(today, s.offset);
    Listen(s.(title := GetWeekLabel(s.offset, dates)), dates)
  }

  /** `navigateWeek(direction)`: move the offset, then refresh. */
  function NavigateWeek(s: Session, direction: int, today: int): (r: Session)
    ensures r.offset == s.offset + direction
    ensures r.title.ThisWeek? <==> s.offset + direction == 0
    ensures r.current == Some(s.next) && s.next in r.active
    ensures r.active[s.next].dates == WeekDates(today, r.offset)
  {
    Refresh(s.(offset := s.offset + direction), today)
  }

  /** The "Today" button: back to offset 0, then refresh. */
  function JumpToToday(s: Session, today: int): (r: Session)
    ensures r.offset == 0 && r.title == ThisWeek
    ensures r.current == Some(s.next) && s.next in r.active
    ensures r.active[s.next].dates == WeekDates(today, 0)
  {
    Refresh(s.(offset := 0), today)
  }

  // ---------------------------------------------------------------------
  // One listener
  // ---------------------------------------------------------------------

  /** Listening switches the old callback off: afterwards only the new one is registered. */
  lemma ListenSingle(s: Session, dates: seq<string>)
    requires Single(s) && |dates| == 7
    ensures Single(Listen(s, dates))
    ensures Listen(s, dates).active.Keys == {s.next}
  {
  }

  /** What happens to the board. */
  datatype Event =
    | Navigate(direction: int, today: int)
    | Today(today: int)
    | Snapshot(h: Handle, store: Store)

  function Step(s: Session, e: Event): Session {
    match e
    case Navigate(direction, today) => NavigateWeek(s, direction, today)
    case Today(today) => JumpToToday(s, today)
    case Snapshot(h, store) => Deliver(s, h, store)
  }

  /** `initApp` refreshes once, then the events happen in order. */
  function Run(today: int, events: seq<Event>): Session {
    if events == [] then Refresh(Initial, today)
    else Step(Run(today, events[..|events| - 1]), events[|events| - 1])
  }

  lemma StepSingle(s: Session, e: Event)
    requires Single(s)
    ensures Single(Step(s, e))
  {
    match e
    case Navigate(direction, today) =>
      var t := s.(offset := s.offset + direction);
      ListenSingle(t.(title := GetWeekLabel(t.offset, WeekDates(today, t.offset))), WeekDates(today, t.offset));
    case Today(today) =>
      var t := s.(offset := 0);
      ListenSingle(t.(title := GetWeekLabel(0, WeekDates(today, 0))), WeekDates(today, 0));
    case Snapshot(h, store) =>
  }

  /** After any sequence of events exactly one callback is registered, and it is the current one. */
  lemma {:induction false} RunSingle(today: int, events: seq<Event>)
    ensures Single(Run(today, events))
    ensures Run(today, events).current.Some?
  {
    if events == [] {
      ListenSingle(Initial.(title := GetWeekLabel(0, WeekDates(today, 0))), WeekDates(today, 0));
    } else {
      var s := Run(today, events[..|events| - 1]);
      RunSingle(today, events[..|events| - 1]);
      StepSingle(s, events[|events| - 1]);
    }
  }

  /** A callback that was switched off can be sent any snapshot without effect. */
  lemma StaleCallback(s: Session, dates: seq<string>, h: Handle, store: Store)
    requires Single(s) && |dates| == 7 && h != s.next
    ensures Deliver(Listen(s, dates), h, store) == Listen(s, dates)
  {
    ListenSingle(s, dates);
  }

  // ---------------------------------------------------------------------
  // Navigation
  // ---------------------------------------------------------------------

  /** Navigating by `direction` weeks moves the listened window by `7 * direction` days. */
  lemma NavigateShifts(s: Session, direction: int, today: int)
    ensures var r := NavigateWeek(s, direction, today);
      WeekStart(today, r.offset) == WeekStart(today, s.offset) + 7 * direction
  {
    WeekShift(today, s.offset, direction);
  }

  /** "Today" listens on the week that holds today, whatever the offset was. */
  lemma JumpHoldsToday(s: Session, today: int)
    ensures FormatDate(today) in JumpToToday(s, today).active[s.next].dates
  {
    var k := ThisWeekHoldsToday(today);
  }

  // ---------------------------------------------------------------------
  // The window of a snapshot
  // ---------------------------------------------------------------------

  /** With four-digit years, a day string is in the listened range exactly
      when its day lies in the window. */
  lemma RangeIsWindow(today: int, offset: int, n: int)
    requires 1000 <= FullYear(WeekDays(today, offset)[0]) && FullYear(WeekDays(today, offset)[6]) <= 9999
    requires 1000 <= FullYear(n) <= 9999
    ensures var dates := WeekDates(today, offset);
      var days := WeekDays(today, offset);
      InRange(Some(FormatDate(n)), dates[0], dates[6]) <==> days[0] <= n <= days[6]
  {
    var days := WeekDays(today, offset);
    YearMonotone(days[0], days[6]);
    FormatDateOrder(days[0], n);
    FormatDateOrder(n, days[6]);
  }

  /** Every day string of the window is in its range. */
  lemma WindowInRange(today: int, offset: int, k: int)
    requires 0 <= k < 7
    requires 1000 <= FullYear(WeekDays(today, offset)[0]) && FullYear(WeekDays(today, offset)[6]) <= 9999
    ensures var dates := WeekDates(today, offset);
      InRange(Some(dates[k]), dates[0], dates[6])
  {
    WeekDatesAscend(today, offset, 0, k);
    WeekDatesAscend(today, offset, k, 6);
  }

  /** After a refresh and the first snapshot of the database `store`, with
      four-digit years in the window, column `k` of the redrawn board lists
      every record of `store` whose day is the column's date exactly once,
      and nothing else. */
  lemma SnapshotColumn(s: Session, today: int, store: Store, order: seq<string>, k: int)
    requires 0 <= k < 7
    requires 1000 <= FullYear(WeekDays(today, s.offset)[0]) && FullYear(WeekDays(today, s.offset)[6]) <= 9999
    requires Enumerates(order, Deliver(Refresh(s, today), s.next, store).cache)
    ensures var r := Deliver(Refresh(s, today), s.next, store);
      var date := WeekDates(today, s.offset)[k];
      && r.shown == WeekDates(today, s.offset)
      && (forall e :: e in DayTasks(date, r.cache, order) ==>
            e.id in store && e.data == store[e.id] && e.data.day == Some(date))
      && (forall id :: id in store && store[id].day == Some(date) ==>
            multiset(DayTasks(date, r.cache, order))[Entry(id, store[id])] == 1)
  {
    var dates := WeekDates(today, s.offset);
    var r := Deliver(Refresh(s, today), s.next, store);
    WindowInRange(today, s.offset, k);
    assert r.cache == Select(store, dates[0], dates[6]);
    DayTasksExact(dates[k], r.cache, order);
  }

  /** On this week's board exactly one column is today's, the one of today's weekday. */
  lemma TodayColumn(today: int, cache: Store, order: seq<string>, i: int)
    requires Enumerates(order, cache) && 0 <= i < 7
    requires FullYear(WeekDays(today, 0)[0]) >= 100
    ensures RenderWeek(WeekDates(today, 0), cache, order, FormatDate(today))[i].isToday
      <==> i == today - WeekStart(today, 0)
  {
    var days := WeekDays(today, 0);
    var k := ThisWeekHoldsToday(today);
    YearMonotone(days[0], days[i]);
    YearMonotone(days[0], today);
    if FormatDate(days[i]) == FormatDate(today) {
      FormatDateInjective(days[i], today);
    }
  }
}

=== FILE: tasks.dfy ===
/**
 The task store of the board: the realtime database's `tasks` node, a map
 from push id to task record, and the four guarded transitions the board
 applies to it. The current user (the `localStorage` entry, "" when unset),
 the answer to the confirmation dialog, the new push id and the server
 timestamp are parameters.
 */
module Tasks {
  import opened Wrappers
  import opened Text

  /** The only user allowed to delete tasks. */
  const ADMIN_USER: string := "Adriana"

  /** A task record. A field the record does not hold is None: `completedBy`
      is written as `null`, which the database stores as an absent field,
      and a record created by `update` on a missing id holds only the
      `completed` and `completedBy` fields. */
  datatype Task = Task(
    text: Option<string>,
    assignedTo: Option<string>,
    day: Option<string>,
    completed: bool,
    completedBy: Option<string>,
    createdAt: Option<int>)

  type Store = map<string, Task>

  /** The completion invariant: a task names who completed it exactly when it
      is completed, and that name is a signed-in user. */
  predicate Consistent(t: Task) {
    (t.completed <==> t.completedBy.Some?)
    && (t.completedBy.Some? ==> t.completedBy.value != "")
  }

  predicate AllConsistent(store: Store) {
    forall id :: id in store ==> Consistent(store[id])
  }

  /** `store` is `before` with the record under `id` replaced or added and nothing else changed. */
  predicate OthersUnchanged(before: Store, after: Store, id: string) {
    (forall k :: k in before && k != id ==> k in after && after[k] == before[k])
    && (forall k :: k in after && k != id ==> k in before)
  }

  // ---------------------------------------------------------------------
  // Transitions
  // ---------------------------------------------------------------------

  /** `addTask(text, assignedTo, day)`: nothing when the trimmed text is empty;
      otherwise a new record under the new push id `id`, stamped with the
      server time `now`. */
  function AddTask(store: Store, text: string, assignedTo: string, day: string, id: string, now: int): (r: Store)
    requires id !in store
    ensures AllWhitespace(text) ==> r == store
    ensures !AllWhitespace(text) ==>
      && r.Keys == store.Keys + {id}
      && r[id] == Task(Some(Trim(text)), Some(assignedTo), Some(day), false, None, Some(now))
      && Trim(text) != []
    ensures OthersUnchanged(store, r, id)
  {
    TrimEmpty(text);
    if Trim(text) == [] then store
    else store[id := Task(Some(Trim(text)), Some(assignedTo), Some(day), false, None, Some(now))]
  }

  /** `removeTask(taskId)`: only the admin deletes, and only the given record. */
  function RemoveTask(store: Store, user: string, id: string): (r: Store)
    ensures user != ADMIN_USER ==> r == store
    ensures user == ADMIN_USER ==> r.Keys == store.Keys - {id}
    ensures forall k :: k in r ==> k in store && r[k] == store[k]
  {
    if user != ADMIN_USER then store else store - {id}
  }

  /** The fields `update({completed, completedBy})` writes into a record; a
      missing record is created with just these two fields. */
  function SetCompletion(prior: Option<Task>, completed: bool, completedBy: Option<string>): (t: Task)
    ensures t.completed == completed && t.completedBy == completedBy
    ensures prior.Some? ==>
      && t.text == prior.value.text && t.assignedTo == prior.value.assignedTo
      && t.day == prior.value.day && t.createdAt == prior.value.createdAt
    ensures prior.None? ==> t.text.None? && t.assignedTo.None? && t.day.None? && t.createdAt.None?
  {
    match prior
    case Some(o) => o.(completed := completed, completedBy := completedBy)
    case None => Task(None, None, None, completed, completedBy, None)
  }

  /** `toggleTaskComplete(taskId, currentlyCompleted)`: nothing without a
      user; otherwise the record gets the flipped flag, and the user's name
      exactly when the new flag is set. */
  function ToggleTaskComplete(store: Store, user: string, id: string, currentlyCompleted: bool): (r: Store)
    ensures user == "" ==> r == store
    ensures user != "" ==>
      && id in r
      && r[id].completed == !currentlyCompleted
      && (r[id].completedBy.Some? <==> r[id].completed)
      && (r[id].completed ==> r[id].completedBy == Some(user))
      && Consistent(r[id])
      && (id in store ==>
            && r[id].text == store[id].text && r[id].assignedTo == store[id].assignedTo
            && r[id].day == store[id].day && r[id].createdAt == store[id].createdAt)
      && r.Keys == store.Keys + {id}
    ensures OthersUnchanged(store, r, id)
  {
    if user == "" then store
    else
      var prior := if id in store then Some(store[id]) else None;
      store[id := SetCompletion(prior, !currentlyCompleted, if !currentlyCompleted then Some(user) else None)]
  }

  /** `clearAllTasks()`: only the admin, and only after confirming, removes
      the whole `tasks` node, whatever the week shown. */
  function ClearAllTasks(store: Store, user: string, confirmed: bool): (r: Store)
    ensures user == ADMIN_USER && confirmed ==> r == map[]
    ensures !(user == ADMIN_USER && confirmed) ==> r == store
  {
    if user != ADMIN_USER then store
    else if !confirmed then store
    else map[]
  }

  // ---------------------------------------------------------------------
  // Properties across operations
  // ---------------------------------------------------------------------

  /** Every transition keeps the completion invariant of every record. */
  lemma AddKeepsConsistent(store: Store, text: string, assignedTo: string, day: string, id: string, now: int)
    requires id !in store && AllConsistent(store)
    ensures AllConsistent(AddTask(store, text, assignedTo, day, id, now))
  {
  }

  lemma ToggleKeepsConsistent(store: Store, user: string, id: string, currentlyCompleted: bool)
    requires AllConsistent(store)
    ensures AllConsistent(ToggleTaskComplete(store, user, id, currentlyCompleted))
  {
    var r := ToggleTaskComplete(store, user, id, currentlyCompleted);
    forall k | k in r
      ensures Consistent(r[k])
    {
      if k != id || user == "" {
        assert r[k] == store[k];
      }
    }
  }

  lemma RemoveKeepsConsistent(store: Store, user: string, id: string, confirmed: bool)
    requires AllConsistent(store)
    ensures AllConsistent(RemoveTask(store, user, id))
    ensures AllConsistent(ClearAllTasks(store, user, confirmed))
  {
  }

  /** Toggling back with the flag the first toggle produced restores a
      record that was open, or that this same user had completed. */
  lemma ToggleTwice(store: Store, user: string, id: string)
    requires user != "" && id in store && Consistent(store[id])
    requires !store[id].completed || store[id].completedBy == Some(user)
    ensures var once := ToggleTaskComplete(store, user, id, store[id].completed);
      ToggleTaskComplete(once, user, id, once[id].completed) == store
  {
    var once := ToggleTaskComplete(store, user, id, store[id].completed);
    var twice := ToggleTaskComplete(once, user, id, once[id].completed);
    assert twice[id] == store[id];
    assert twice.Keys == store.Keys;
  }

  /** A user other than the admin never makes a record disappear, whatever
      they do. */
  lemma OnlyAdminDeletes(store: Store, user: string, id: string, text: string, assignedTo: string,
                         day: string, newId: string, now: int, flag: bool, confirmed: bool)
    requires user != ADMIN_USER && newId !in store
    ensures store.Keys <= AddTask(store, text, assignedTo, day, newId, now).Keys
    ensures store.Keys <= ToggleTaskComplete(store, user, id, flag).Keys
    ensures RemoveTask(store, user, id) == store
    ensures ClearAllTasks(store, user, confirmed) == store
  {
  }

  /** Adding a task and then removing it as the admin gives the store back. */
  lemma AddThenRemove(store: Store, text: string, assignedTo: string, day: string, id: string, now: int)
    requires id !in store
    ensures RemoveTask(AddTask(store, text, assignedTo, day, id, now), ADMIN_USER, id) == store
  {
    var r := RemoveTask(AddTask(store, text, assignedTo, day, id, now), ADMIN_USER, id);
    assert r.Keys == store.Keys;
  }
}

=== FILE: text.dfy ===
/**
 The JavaScript string operations the task board relies on: `trim`,
 `split` on a one-character separator, and the order in which the realtime
 database compares string values, taken here as code-point order.
 */
module Text {

  // ---------------------------------------------------------------------
  // Whitespace and trim
  // ---------------------------------------------------------------------

  /** ECMAScript WhiteSpace and LineTerminator characters: what `trim` strips. */
  predicate IsWhitespace(c: char) {
    var k := c as int;
    k == 0x09 || k == 0x0A || k == 0x0B || k == 0x0C || k == 0x0D || k == 0x20
    || k == 0xA0 || k == 0x1680 || (0x2000 <= k <= 0x200A)
    || k == 0x2028 || k == 0x2029 || k == 0x202F || k == 0x205F || k == 0x3000
    || k == 0xFEFF
  }

  /** Every character of `s` from index `lo` up to (not including) `hi` is whitespace. */
  predicate WhitespaceBetween(s: string, lo: int, hi: int)
    requires 0 <= lo <= hi <= |s|
  {
    forall k :: lo <= k < hi ==> IsWhitespace(s[k])
  }

  predicate AllWhitespace(s: string) {
    WhitespaceBetween(s, 0, |s|)
  }

  /** Index of the first character at or after `k` that is not whitespace
      (|s| when there is none). */
  function SkipSpace(s: string, k: nat): (i: nat)
    requires k <= |s|
    ensures k <= i <= |s|
    ensures WhitespaceBetween(s, k, i)
    ensures i < |s| ==> !IsWhitespace(s[i])
    decreases |s| - k
  {
    if k < |s| && IsWhitespace(s[k]) then SkipSpace(s, k + 1) else k
  }

  /** End of `s[lo..hi]` once its trailing whitespace is dropped. */
  function DropSpaceBack(s: string, lo: nat, hi: nat): (j: nat)
    requires lo <= hi <= |s|
    ensures lo <= j <= hi
    ensures WhitespaceBetween(s, j, hi)
    ensures j > lo ==> !IsWhitespace(s[j - 1])
    decreases hi
  {
    if hi > lo && IsWhitespace(s[hi - 1]) then DropSpaceBack(s, lo, hi - 1) else hi
  }

  /** JavaScript `String.prototype.trim`: `s` without leading and trailing whitespace. */
  function Trim(s: string): string {
    var i := SkipSpace(s, 0);
    s[i..DropSpaceBack(s, i, |s|)]
  }

  /** Trim removes a whitespace prefix and a whitespace suffix and nothing
      else, and what it keeps neither starts nor ends with whitespace. */
  lemma TrimSlice(s: string) returns (i: int, j: int)
    ensures 0 <= i <= j <= |s| && Trim(s) == s[i..j]
    ensures WhitespaceBetween(s, 0, i) && WhitespaceBetween(s, j, |s|)
    ensures i < j ==> !IsWhitespace(s[i]) && !IsWhitespace(s[j - 1])
  {
    i := SkipSpace(s, 0);
    j := DropSpaceBack(s, i, |s|);
    if i < j {
      assert !IsWhitespace(s[i]);
    }
  }

  /** The trimmed text is empty exactly when the text is all whitespace. */
  lemma TrimEmpty(s: string)
    ensures Trim(s) == [] <==> AllWhitespace(s)
  {
    var i := SkipSpace(s, 0);
    var j := DropSpaceBack(s, i, |s|);
    if i < |s| {
      assert !IsWhitespace(s[i]);
      assert j > i;
    }
  }

  lemma TrimIdempotent(s: string)
    ensures Trim(Trim(s)) == Trim(s)
  {
    var i, j := TrimSlice(s);
    var t := Trim(s);
    if i < j {
      var a, b := TrimSlice(t);
      assert !IsWhitespace(t[0]) && !IsWhitespace(t[|t| - 1]);
    }
  }

  // ---------------------------------------------------------------------
  // split
  // ---------------------------------------------------------------------

  /** JavaScript `s.split(sep)` for a one-character separator: the pieces
      between separators, with an empty piece for every separator at either
      end or next to another one. */
  function Split(s: string, sep: char): (parts: seq<string>)
    ensures |parts| >= 1
    ensures forall k :: 0 <= k < |parts| ==> sep !in parts[k]
  {
    if |s| == 0 then [""]
    else
      var rest := Split(s[1..], sep);
      if s[0] == sep then [""] + rest
      else [[s[0]] + rest[0]] + rest[1..]
  }

  /** The pieces glued back with the separator. */
  function Join(parts: seq<string>, sep: char): string
    requires |parts| >= 1
  {
    if |parts| == 1 then parts[0] else parts[0] + [sep] + Join(parts[1..], sep)
  }

  /** Splitting loses nothing: gluing the pieces back gives the string. */
  lemma {:induction false} SplitJoin(s: string, sep: char)
    ensures Join(Split(s, sep), sep) == s
  {
    if |s| > 0 {
      SplitJoin(s[1..], sep);
      var rest := Split(s[1..], sep);
      if s[0] != sep && |rest| > 1 {
        assert Join(rest, sep) == rest[0] + [sep] + Join(rest[1..], sep);
      }
    }
  }

  /** A piece free of the separator splits into itself. */
  lemma {:induction false} SplitPlain(a: string, sep: char)
    requires sep !in a
    ensures Split(a, sep) == [a]
  {
    if |a| > 0 {
      SplitPlain(a[1..], sep);
      assert [a[0]] + a[1..] == a;
    }
  }

  /** A separator-free prefix followed by the separator is split off as the first piece. */
  lemma {:induction false} SplitFirst(a: string, sep: char, b: string)
    requires sep !in a
    ensures Split(a + [sep] + b, sep) == [a] + Split(b, sep)
  {
    if |a| == 0 {
      assert a + [sep] + b == [sep] + b;
      assert ([sep] + b)[1..] == b;
    } else {
      assert (a + [sep] + b)[1..] == a[1..] + [sep] + b;
      SplitFirst(a[1..], sep, b);
      assert [a[0]] + a[1..] == a;
    }
  }

  /** Splitting three separator-free pieces joined by the separator gives them back. */
  lemma SplitThree(a: string, b: string, c: string, sep: char)
    requires sep !in a && sep !in b && sep !in c
    ensures Split(a + [sep] + b + [sep] + c, sep) == [a, b, c]
  {
    SplitPlain(c, sep);
    SplitFirst(b, sep, c);
    assert a + [sep] + b + [sep] + c == a + [sep] + (b + [sep] + c);
    SplitFirst(a, sep, b + [sep] + c);
  }

  // ---------------------------------------------------------------------
  // Order of string values
  // ---------------------------------------------------------------------

  /** `a` sorts before or equal to `b`, comparing character by character. */
  predicate LexLe(a: string, b: string) {
    if |a| == 0 then true
    else if |b| == 0 then false
    else if a[0] != b[0] then a[0] < b[0]
    else LexLe(a[1..], b[1..])
  }

  /** Comparing two strings that start with equally long prefixes: the
      prefixes decide unless they are equal, and then the rest decides. */
  lemma {:induction false} LexLeAppend(a: string, b: string, c: string, d: string)
    requires |a| == |c|
    ensures a != c ==> (LexLe(a + b, c + d) <==> LexLe(a, c))
    ensures a == c ==> (LexLe(a + b, c + d) <==> LexLe(b, d))
  {
    if |a| > 0 {
      assert (a + b)[1..] == a[1..] + b;
      assert (c + d)[1..] == c[1..] + d;
      if a[0] == c[0] {
        LexLeAppend(a[1..], b, c[1..], d);
        if a[1..] == c[1..] {
          assert a == c;
        }
      }
    } else {
      assert a + b == b && c + d == d;
    }
  }
}

=== FILE: view.dfy ===
/**
 What `renderWeekView(dates, tasks)` puts in each day column: the cached
 records whose `day` is the column's date, in the order `for (taskId in
 tasks)` meets them, then sorted by `createdAt` (a missing value counts as
 0) with `Array.prototype.sort`, which is stable. The enumeration order of
 the cache's keys is a parameter.
 */
module View {
  import opened Wrappers
  import opened Tasks

  /** `{ id: taskId, data: tasks[taskId] }`. */
  datatype Entry = Entry(id: string, data: Task)

  /** One day column: its date, whether it is today, and its tasks in display order. */
  datatype Column = Column(date: string, isToday: bool, tasks: seq<Entry>)

  /** `a.data.createdAt || 0`. */
  function SortKey(e: Entry): int {
    match e.data.createdAt
    case Some(t) => t
    case None => 0
  }

  /** `order` lists every key of `cache` exactly once, as `for..in` does. */
  predicate Enumerates(order: seq<string>, cache: Store) {
    (forall i, j :: 0 <= i < j < |order| ==> order[i] != order[j])
    && (forall i :: 0 <= i < |order| ==> order[i] in cache)
    && (forall id :: id in cache ==> id in order)
  }

  /** The entry belongs to the column of `date`: it is the cached record under its id and its day is `date`. */
  predicate BelongsTo(e: Entry, date: string, cache: Store) {
    e.id in cache && e.data == cache[e.id] && e.data.day == Some(date)
  }

  predicate SortedByCreated(s: seq<Entry>) {
    forall i, j :: 0 <= i < j < |s| ==> SortKey(s[i]) <= SortKey(s[j])
  }

  // ---------------------------------------------------------------------
  // The per-day filter
  // ---------------------------------------------------------------------

  /** The `for (taskId in tasks)` loop: the records whose day is `date`, in enumeration order. */
  function Matching(date: string, cache: Store, order: seq<string>): (r: seq<Entry>)
    requires forall i :: 0 <= i < |order| ==> order[i] in cache
    ensures forall i :: 0 <= i < |r| ==> BelongsTo(r[i], date, cache) && r[i].id in order
  {
    if order == [] then []
    else
      var id := order[0];
      var rest := Matching(date, cache, order[1..]);
      if cache[id].day == Some(date) then [Entry(id, cache[id])] + rest else rest
  }

  /** The filter keeps each record of the day exactly once and nothing else. */
  lemma {:induction false} MatchingCount(date: string, cache: Store, order: seq<string>, id: string)
    requires forall i :: 0 <= i < |order| ==> order[i] in cache
    requires forall i, j :: 0 <= i < j < |order| ==> order[i] != order[j]
    requires id in cache
    ensures multiset(Matching(date, cache, order))[Entry(id, cache[id])]
      == if id in order && cache[id].day == Some(date) then 1 else 0
  {
    if order != [] {
      MatchingCount(date, cache, order[1..], id);
      if order[0] == id {
        assert id !in order[1..];
        assert Entry(id, cache[id]) !in Matching(date, cache, order[1..]);
      } else {
        assert id in order <==> id in order[1..];
      }
    }
  }

  // ---------------------------------------------------------------------
  // The stable sort
  // ---------------------------------------------------------------------

  /** Insert `e` into a sorted sequence after every element whose key is not greater. */
  function Insert(e: Entry, s: seq<Entry>): (r: seq<Entry>)
    ensures multiset(r) == multiset(s) + multiset{e}
  {
    if s == [] then [e]
    else if SortKey(e) < SortKey(s[0]) then [e] + s
    else
      assert s == [s[0]] + s[1..];
      [s[0]] + Insert(e, s[1..])
  }

  predicate AllAtLeast(s: seq<Entry>, lo: int) {
    forall i :: 0 <= i < |s| ==> lo <= SortKey(s[i])
  }

  lemma {:induction false} InsertAtLeast(e: Entry, s: seq<Entry>, lo: int)
    requires AllAtLeast(s, lo) && lo <= SortKey(e)
    ensures AllAtLeast(Insert(e, s), lo)
  {
    if s != [] && SortKey(e) >= SortKey(s[0]) {
      InsertAtLeast(e, s[1..], lo);
    }
  }

  /** Inserting into a sorted sequence keeps it sorted. */
  lemma {:induction false} InsertSorted(e: Entry, s: seq<Entry>)
    requires SortedByCreated(s)
    ensures SortedByCreated(Insert(e, s))
  {
    if s != [] && SortKey(e) >= SortKey(s[0]) {
      InsertSorted(e, s[1..]);
      InsertAtLeast(e, s[1..], SortKey(s[0]));
      var r := Insert(e, s);
      assert r == [s[0]] + Insert(e, s[1..]);
    }
  }

  /** `dayTasks.sort(...)` by `createdAt`: a stable insertion sort. */
  function Sort(s: seq<Entry>): (r: seq<Entry>)
    ensures SortedByCreated(r)
    ensures multiset(r) == multiset(s)
  {
    if s == [] then []
    else
      var p := s[..|s| - 1];
      assert s == p + [s[|s| - 1]];
      InsertSorted(s[|s| - 1], Sort(p));
      Insert(s[|s| - 1], Sort(p))
  }

  /** `[e]` when the key of `e` is `v`, else nothing. */
  function KeyPart(e: Entry, v: int): seq<Entry> {
    if SortKey(e) == v then [e] else []
  }

  /** The entries of `s` whose key is `v`, in order. */
  function WithKey(s: seq<Entry>, v: int): seq<Entry> {
    if s == [] then [] else KeyPart(s[0], v) + WithKey(s[1..], v)
  }

  lemma WithKeyCons(e: Entry, s: seq<Entry>, v: int)
    ensures WithKey([e] + s, v) == KeyPart(e, v) + WithKey(s, v)
  {
    assert ([e] + s)[1..] == s;
  }

  lemma {:induction false} WithKeyAppend(a: seq<Entry>, b: seq<Entry>, v: int)
    ensures WithKey(a + b, v) == WithKey(a, v) + WithKey(b, v)
  {
    if a != [] {
      assert (a + b)[1..] == a[1..] + b;
      WithKeyAppend(a[1..], b, v);
    } else {
      assert a + b == b;
    }
  }

  lemma {:induction false} WithKeyNone(s: seq<Entry>, v: int)
    requires forall i :: 0 <= i < |s| ==> SortKey(s[i]) > v
    ensures WithKey(s, v) == []
  {
    if s != [] {
      WithKeyNone(s[1..], v);
    }
  }

  /** An entry that goes in front of a sorted sequence holds the only entry with its key among the first. */
  lemma InsertFrontWithKey(e: Entry, s: seq<Entry>, v: int)
    requires SortedByCreated(s) && s != [] && SortKey(e) < SortKey(s[0])
    ensures WithKey([e] + s, v) == WithKey(s, v) + KeyPart(e, v)
  {
    WithKeyCons(e, s, v);
    if SortKey(e) == v {
      assert forall i :: 0 <= i < |s| ==> SortKey(s[0]) <= SortKey(s[i]);
      WithKeyNone(s, v);
    }
  }

  lemma {:induction false} InsertWithKey(e: Entry, s: seq<Entry>, v: int)
    requires SortedByCreated(s)
    ensures WithKey(Insert(e, s), v) == WithKey(s, v) + KeyPart(e, v)
  {
    if s == [] {
      WithKeyCons(e, [], v);
    } else if SortKey(e) < SortKey(s[0]) {
      InsertFrontWithKey(e, s, v);
    } else {
      var t := s[1..];
      SortedTail(s);
      InsertWithKey(e, t, v);
      assert s == [s[0]] + t;
      ConsWithKey(s[0], Insert(e, t), t, e, v);
    }
  }

  lemma SortedTail(s: seq<Entry>)
    requires SortedByCreated(s) && s != []
    ensures SortedByCreated(s[1..])
  {
    forall i, j | 0 <= i < j < |s| - 1
      ensures SortKey(s[1..][i]) <= SortKey(s[1..][j])
    {
      assert s[1..][i] == s[i + 1] && s[1..][j] == s[j + 1];
    }
  }

  /** Putting an entry in front of both sides keeps the keyed parts in step. */
  lemma ConsWithKey(x: Entry, r: seq<Entry>, t: seq<Entry>, e: Entry, v: int)
    requires WithKey(r, v) == WithKey(t, v) + KeyPart(e, v)
    ensures WithKey([x] + r, v) == WithKey([x] + t, v) + KeyPart(e, v)
  {
    WithKeyCons(x, r, v);
    WithKeyCons(x, t, v);
    var a, b, c := KeyPart(x, v), WithKey(t, v), KeyPart(e, v);
    assert a + (b + c) == (a + b) + c;
  }

  /** The sort is stable: the entries sharing any one key keep their relative order. */
  lemma {:induction false} SortStable(s: seq<Entry>, v: int)
    ensures WithKey(Sort(s), v) == WithKey(s, v)
  {
    if s != [] {
      var p, x := s[..|s| - 1], s[|s| - 1];
      assert s == p + [x];
      SortStable(p, v);
      InsertWithKey(x, Sort(p), v);
      WithKeyAppend(p, [x], v);
      WithKeyCons(x, [], v);
      assert [x] + [] == [x];
      calc {
        WithKey(Sort(s), v);
        WithKey(Insert(x, Sort(p)), v);
        WithKey(Sort(p), v) + KeyPart(x, v);
        WithKey(p, v) + WithKey([x], v);
        WithKey(p + [x], v);
      }
    }
  }

  // ---------------------------------------------------------------------
  // Columns
  // ---------------------------------------------------------------------

  /** The task list of the column of `date`. */
  function DayTasks(date: string, cache: Store, order: seq<string>): seq<Entry>
    requires Enumerates(order, cache)
  {
    Sort(Matching(date, cache, order))
  }

  /** A column lists exactly the cached records of its day, each once, sorted by
      `createdAt` with a missing value read as 0. */
  lemma DayTasksExact(date: string, cache: Store, order: seq<string>)
    requires Enumerates(order, cache)
    ensures SortedByCreated(DayTasks(date, cache, order))
    ensures forall e :: e in DayTasks(date, cache, order) ==> BelongsTo(e, date, cache)
    ensures forall id :: id in cache && cache[id].day == Some(date) ==>
      multiset(DayTasks(date, cache, order))[Entry(id, cache[id])] == 1
  {
    var m := Matching(date, cache, order);
    forall e | e in DayTasks(date, cache, order)
      ensures BelongsTo(e, date, cache)
    {
      assert e in multiset(m);
    }
    forall id | id in cache && cache[id].day == Some(date)
      ensures multiset(DayTasks(date, cache, order))[Entry(id, cache[id])] == 1
    {
      MatchingCount(date, cache, order, id);
    }
  }

  /** `renderWeekView(dates, tasks)`: one column per date, flagged when it is
      today's date string `todayText`, listing exactly that date's cached
      records, each once, sorted by `createdAt || 0`. */
  function RenderWeek(dates: seq<string>, cache: Store, order: seq<string>, todayText: string): (cols: seq<Column>)
    requires Enumerates(order, cache)
    ensures |cols| == |dates|
    ensures forall i :: 0 <= i < |cols| ==>
      && cols[i].date == dates[i]
      && (cols[i].isToday <==> dates[i] == todayText)
      && SortedByCreated(cols[i].tasks)
      && (forall e :: e in cols[i].tasks ==> BelongsTo(e, dates[i], cache))
      && (forall id :: id in cache && cache[id].day == Some(dates[i]) ==>
            multiset(cols[i].tasks)[Entry(id, cache[id])] == 1)
  {
    assert forall i | 0 <= i < |dates| ::
      && SortedByCreated(DayTasks(dates[i], cache, order))
      && (forall e :: e in DayTasks(dates[i], cache, order) ==> BelongsTo(e, dates[i], cache))
      && (forall id :: id in cache && cache[id].day == Some(dates[i]) ==>
            multiset(DayTasks(dates[i], cache, order))[Entry(id, cache[id])] == 1)
    by {
      forall i | 0 <= i < |dates| {
        DayTasksExact(dates[i], cache, order);
      }
    }
    seq(|dates|, i requires 0 <= i < |dates| => Column(dates[i], dates[i] == todayText, DayTasks(dates[i], cache, order)))
  }
}

=== FILE: week.dfy ===
/**
 The week window of the board: `getCurrentWeekDates(offset)` computes the
 Monday of the week `offset` weeks away from today and the seven day
 strings from that Monday on, and `getWeekLabel` names the window.
 Today is a parameter: the day number of `new Date()`.
 */
module Week {
  import opened Wrappers
  import opened Text
  import opened Civil
  import opened JsDate
  import opened DateFormat

  /** `dayOfWeek === 0 ? -6 : 1 - dayOfWeek`: the step back from a weekday to
      the Monday on or before it. */
  function MondayOffset(w: int): (k: int)
    requires 0 <= w < 7
    ensures -6 <= k <= 0
    ensures (w + k) % 7 == 1
  {
    if w == 0 then -6 else 1 - w
  }

  /** The Monday of the week holding the day `7 * offset` days from today. */
  function WeekStart(today: int, offset: int): (monday: int)
    ensures WeekDay(monday) == 1
    ensures monday <= today + 7 * offset <= monday + 6
  {
    var mo := MondayOffset(WeekDay(today));
    WeekDayStep(today, mo + offset * 7);
    today + mo + offset * 7
  }

  /** The `monday` of `getCurrentWeekDates(offset)`: `setDate` on today with
      its day of the month plus the offset to this week's Monday plus seven
      days per week lands on WeekStart. */
  lemma MondayBySetDate(today: int, offset: int)
    ensures SetDate(today, DayOfMonth(today) + MondayOffset(WeekDay(today)) + offset * 7) == WeekStart(today, offset)
  {
  }

  /** The day numbers of the window: the Monday and the six days after it. */
  function WeekDays(today: int, offset: int): (days: seq<int>)
    ensures |days| == 7
    ensures WeekDay(days[0]) == 1
    ensures forall k :: 0 < k < 7 ==> days[k] == days[k - 1] + 1
  {
    var monday := WeekStart(today, offset);
    seq(7, k requires 0 <= k < 7 => monday + k)
  }

  /** The day strings of the window, Monday first. */
  function WeekDates(today: int, offset: int): (dates: seq<string>)
    ensures |dates| == 7
  {
    var days := WeekDays(today, offset);
    seq(7, k requires 0 <= k < 7 => FormatDate(days[k]))
  }

  /** `d.setDate(monday.getDate() + i)` on a copy of the Monday is the day `i` days after it. */
  lemma DayBySetDate(monday: int, i: int)
    ensures SetDate(monday, DayOfMonth(monday) + i) == monday + i
  {
  }

  /** Entry `i` of the window is the day string of the Monday moved `i` days. */
  lemma WeekDateAt(today: int, offset: int, i: int, d: int)
    requires 0 <= i < 7 && d == WeekStart(today, offset) + i
    ensures WeekDates(today, offset)[i] == FormatDate(d)
  {
    assert WeekDays(today, offset)[i] == d;
  }

  /** The `monday` of `getCurrentWeekDates(offset)`. */
  method MondayOf(today: int, offset: int) returns (monday: int)
    ensures monday == WeekStart(today, offset)
  {
    monday := SetDate(today, DayOfMonth(today) + MondayOffset(WeekDay(today)) + offset * 7);
    MondayBySetDate(today, offset);
  }

  /** The body of the loop of `getCurrentWeekDates`: `setDate` on a copy of
      the Monday with its day of the month plus `i`, then `formatDate`. */
  method WeekDateOf(today: int, offset: int, monday: int, i: int) returns (s: string)
    requires monday == WeekStart(today, offset) && 0 <= i < 7
    ensures s == WeekDates(today, offset)[i]
  {
    var d := SetDate(monday, DayOfMonth(monday) + i);
    DayBySetDate(monday, i);
    WeekDateAt(today, offset, i, d);
    s := FormatDate(d);
  }

  /** `getCurrentWeekDates(offset)`: the Monday, then the seven days from it. */
  method CurrentWeekDates(today: int, offset: int) returns (dates: seq<string>)
    ensures dates == WeekDates(today, offset)
  {
    var monday := MondayOf(today, offset);
    ghost var all := WeekDates(today, offset);
    dates := [];
    for i := 0 to 7
      invariant dates == all[..i]
    {
      var s := WeekDateOf(today, offset, monday, i);
      PrefixStep(all, i);
      dates := dates + [s];
    }
  }

  /** A prefix one longer is the prefix followed by the next element. */
  lemma PrefixStep<T>(all: seq<T>, i: int)
    requires 0 <= i < |all|
    ensures all[..i + 1] == all[..i] + [all[i]]
  {
  }

  // ---------------------------------------------------------------------
  // The window
  // ---------------------------------------------------------------------

  /** The Monday is the only Monday whose week holds the target day: the
      converse of WeekStart's postcondition. */
  lemma WeekStartUnique(today: int, offset: int, m: int)
    requires WeekDay(m) == 1 && m <= today + 7 * offset <= m + 6
    ensures m == WeekStart(today, offset)
  {
    var s := WeekStart(today, offset);
    assert (m - s) % 7 == 0 by { WeekDayStep(s, m - s); }
  }

  /** Going `n` weeks on moves the Monday by `7 * n` days. */
  lemma WeekShift(today: int, offset: int, n: int)
    ensures WeekStart(today, offset + n) == WeekStart(today, offset) + 7 * n
  {
    var s := WeekStart(today, offset) + 7 * n;
    WeekDayStep(WeekStart(today, offset), 7 * n);
    WeekStartUnique(today, offset + n, s);
  }

  /** The window at offset `n` is the one of offset 0 moved `7 * n` days. */
  lemma WeekFromThisWeek(today: int, n: int)
    ensures forall k :: 0 <= k < 7 ==> WeekDays(today, n)[k] == WeekDays(today, 0)[k] + 7 * n
  {
    WeekShift(today, 0, n);
  }

  /** This week's window holds today, in the column of today's weekday. */
  lemma ThisWeekHoldsToday(today: int) returns (k: int)
    ensures 0 <= k < 7 && WeekDays(today, 0)[k] == today
    ensures WeekDates(today, 0)[k] == FormatDate(today)
    ensures FormatDate(today) in WeekDates(today, 0)
  {
    k := today - WeekStart(today, 0);
    WeekDateAt(today, 0, k, today);
  }

  /** The column of each day is its weekday counted from Monday. */
  lemma ColumnWeekDay(today: int, offset: int, k: int)
    requires 0 <= k < 7
    ensures MondayIndex(WeekDay(WeekDays(today, offset)[k])) == k
  {
    var days := WeekDays(today, offset);
    WeekDayStep(days[0], k);
  }

  /** Years only grow with the day number. */
  lemma YearMonotone(n: int, n': int)
    requires n <= n'
    ensures FullYear(n) <= FullYear(n')
  {
    if n < n' {
      CivilOrder(n, n');
    } else {
      assert n == n';
    }
  }

  /** Each column's day follows the previous column's day in the calendar. */
  lemma WeekConsecutive(today: int, offset: int, k: int)
    requires 0 <= k < 6
    ensures var days := WeekDays(today, offset);
      CivilFromDays(days[k + 1]) == NextDay(CivilFromDays(days[k]))
  {
    var days := WeekDays(today, offset);
    var c := CivilFromDays(days[k]);
    CivilRoundTrip(days[k]);
    NextDayNumber(c);
    SameDayNumber(NextDay(c), days[k + 1]);
  }

  /** The day strings of the window read back as its day numbers, and their
      headers name Monday to Sunday in order. */
  lemma WeekDatesRead(today: int, offset: int, k: int)
    requires 0 <= k < 7
    requires FullYear(WeekDays(today, offset)[0]) >= 100
    ensures ParseDate(WeekDates(today, offset)[k]) == Some(WeekDays(today, offset)[k])
    ensures FormatDateDisplay(WeekDates(today, offset)[k]).Some?
    ensures FormatDateDisplay(WeekDates(today, offset)[k]).value.dayName == DAY_NAMES[k]
  {
    var days := WeekDays(today, offset);
    YearMonotone(days[0], days[k]);
    ParseFormatDate(days[k]);
    DisplayFormatDate(days[k]);
    ColumnWeekDay(today, offset, k);
  }

  /** With four-digit years the day strings of the window are in ascending order. */
  lemma WeekDatesAscend(today: int, offset: int, i: int, j: int)
    requires 0 <= i < 7 && 0 <= j < 7
    requires 1000 <= FullYear(WeekDays(today, offset)[0]) && FullYear(WeekDays(today, offset)[6]) <= 9999
    ensures LexLe(WeekDates(today, offset)[i], WeekDates(today, offset)[j]) <==> i <= j
  {
    var days := WeekDays(today, offset);
    YearMonotone(days[0], days[i]);
    YearMonotone(days[i], days[6]);
    YearMonotone(days[0], days[j]);
    YearMonotone(days[j], days[6]);
    FormatDateOrder(days[i], days[j]);
  }

  /** Worked example: Thursday 2024-06-13 is day 19887, and this week runs
      from day 19884, Monday 2024-06-10, to day 19890, Sunday 2024-06-16. */
  lemma ThisWeekExample()
    ensures DaysFromCivil(Date(2024, 6, 13)) == 19887
    ensures DaysFromCivil(Date(2024, 6, 10)) == 19884 && DaysFromCivil(Date(2024, 6, 16)) == 19890
    ensures WeekDays(19887, 0) == [19884, 19885, 19886, 19887, 19888, 19889, 19890]
  {
    WeekStartUnique(19887, 0, 19884);
  }

  /** Worked example: one week back from Thursday 2024-06-13 the window starts
      on Monday 2024-06-03, day 19877. */
  lemma LastWeekExample()
    ensures DaysFromCivil(Date(2024, 6, 3)) == 19877
    ensures WeekStart(19887, -1) == 19877
  {
    WeekStartUnique(19887, -1, 19877);
  }

  // ---------------------------------------------------------------------
  // Label
  // ---------------------------------------------------------------------

  /** What `getWeekLabel` shows: "This Week", or the first and last day of the window. */
  datatype WeekLabel = ThisWeek | Span(first: Option<MonthDay>, last: Option<MonthDay>)

  /** `getWeekLabel(dates)` while the board shows the week at `offset`. The
      source reads `dates[0]` and `dates[6]`, so it needs seven dates. */
  function GetWeekLabel(offset: int, dates: seq<string>): (l: WeekLabel)
    requires |dates| >= 7
    ensures l.ThisWeek? <==> offset == 0
  {
    if offset == 0 then ThisWeek else Span(MonthDayOf(dates[0]), MonthDayOf(dates[6]))
  }

  /** Away from this week the label names the month and day of the Monday and of the Sunday. */
  lemma WeekLabelOfWindow(today: int, offset: int)
    requires offset != 0
    requires FullYear(WeekDays(today, offset)[0]) >= 100
    ensures var days := WeekDays(today, offset);
      GetWeekLabel(offset, WeekDates(today, offset))
        == Span(Some(MonthDay(MONTH_NAMES[MonthIndex(days[0])], DayOfMonth(days[0]))),
                Some(MonthDay(MONTH_NAMES[MonthIndex(days[6])], DayOfMonth(days[6]))))
  {
    var days := WeekDays(today, offset);
    YearMonotone(days[0], days[6]);
    MonthDayFormatDate(days[0]);
    MonthDayFormatDate(days[6]);
  }
}

=== FILE: wrappers.dfy ===
/** The optional-value type used throughout the model. */
module Wrappers {

  /** A value that may be absent: a JavaScript `null`, `undefined` or `NaN`. */
  datatype Option<+T> = None | Some(value: T)
}
